=== FILE: README.md ===
# 212 May Street — a Dafny model of the household app's list and text logic

212 May Street is a Next.js app for a shared house. It has a chat, a praise
wall, a feedback log, a house-mates directory, profile pages and a "what's
new" summary generated from commit messages. This project models the
deterministic logic inside those pages and server actions:

- the bullet-line normaliser and the fallback summaries of the updates endpoint;
- the two birthday renderings;
- the optimistic list updates of the chat, the feedback log and the praise wall;
- the prepend-and-write store actions and the forms' submit handlers;
- the route guard's access decision;
- the mapping from registered users to welcome notifications.

Everything is a pure function over immutable values. Ids, timestamps, the
contents of session storage, store file reads, the text generator's output
and the users endpoint's answer are all parameters. A server call that a
handler makes is returned as a value next to the new view.

Modules:

- `Wrappers`: `Option`.
- `JsText`: the JavaScript string operations the pages rely on:
  - `trim` with the ECMAScript whitespace set;
  - `split` on one character;
  - `parseInt` with no radix;
  - the decimal rendering of an integer;
  - ASCII upper-casing.
- `Users`: the stored user and the shared "alias, else first name" rule.
- `UpdatesRoute`: `app/api/updates/route.ts`.
- `Birthday`: `app/my-room/page.tsx` and `app/mates/page.tsx`.
- `Chat`: `app/chat/page.tsx`.
- `Actions`: `app/actions.ts`.
- `FeedbackPage`: `app/feedback/page.tsx`.
- `HomePage`: `app/page.tsx`.
- `RouteGuard`: `app/components/RouteGuard.tsx`.
- `Notifications`: `app/notifications/page.tsx`.

## Model

| member | source | states |
|---|---|---|
| JsText.TrimStart | app/api/updates/route.ts:43 | the result is no longer than the input and does not start with whitespace |
| JsText.TrimStartRemovesWhite | app/api/updates/route.ts:43 | the result is a suffix of the input, and everything removed is whitespace |
| JsText.TrimEnd | app/api/updates/route.ts:43 | the result is no longer than the input and does not end with whitespace |
| JsText.TrimEndRemovesWhite | app/api/updates/route.ts:43 | the result is a prefix of the input, and everything removed is whitespace |
| JsText.Trim | app/api/updates/route.ts:43 | `trim()` returns a string with whitespace at neither end, no longer than its input |
| JsText.TrimIsInfix | app/api/updates/route.ts:43 | the trimmed string occurs inside the input |
| JsText.TrimPadded | app/api/updates/route.ts:43 | a string with whitespace only around a core that has no whitespace at either end trims to exactly that core |
| JsText.TrimIdempotent | app/chat/page.tsx:74-75 | trimming twice is trimming once, so the emptiness test and the text sent agree |
| JsText.Split | app/api/updates/route.ts:42 | `split` gives at least one piece, and no piece holds the separator |
| JsText.SplitCount | app/my-room/page.tsx:48-49 | the number of pieces is one more than the number of separators in the input |
| JsText.JoinSplit | app/api/updates/route.ts:42 | joining the pieces back with the separator gives the input (nothing is lost) |
| JsText.SplitJoin | app/api/updates/route.ts:42 | splitting a join of separator-free pieces gives those pieces back |
| JsText.SplitNoSeparator | app/api/updates/route.ts:42 | a string without the separator splits into itself alone |
| JsText.SplitPrefix | app/mates/page.tsx:31 | a separator-free head followed by the separator splits into the head, then the pieces of the rest |
| JsText.SplitThree | app/mates/page.tsx:31-32 | `a-b-c` with dash-free fields splits into exactly those three fields |
| JsText.DigitRun | app/my-room/page.tsx:51 | `parseInt` reads the longest prefix of digits: all digits, and the next character is not one |
| JsText.DigitRunAll | app/my-room/page.tsx:51 | a string made only of digits is read entirely |
| JsText.NatToString | app/my-room/page.tsx:51 | a number is written as digits whose value is the number, with no leading zero unless it is 0 |
| JsText.ParseDigits | app/my-room/page.tsx:51 | `parseInt` of a decimal digit string is the value of those digits, so leading zeros are ignored |
| JsText.MagnitudeOfDigits | app/my-room/page.tsx:51 | an unsigned decimal digit string reads as its value |
| JsText.ParseIntToString | app/my-room/page.tsx:51 | reading back the decimal rendering of any integer gives that integer |
| JsText.ParseInt | app/my-room/page.tsx:51 | blank input reads as `NaN`, and a negative result needs a `-` as the first character after the leading whitespace |
| JsText.ParseIntSkipsWhite | app/my-room/page.tsx:51 | leading whitespace does not change what `parseInt` reads |
| JsText.ParseIntSign | app/my-room/page.tsx:51 | one leading `-` negates the magnitude read after it and one leading `+` keeps it |
| JsText.ParseIntPadded | app/my-room/page.tsx:51 | whitespace followed by decimal digits reads as the value of the digits |
| JsText.ParseIntPaddedNegative | app/my-room/page.tsx:51 | whitespace, `-` and decimal digits read as the negated value of the digits |
| JsText.ParseIntPaddedPositive | app/my-room/page.tsx:51 | whitespace, `+` and decimal digits read as the value of the digits |
| JsText.ParseIntHex | app/my-room/page.tsx:51 | `0x` or `0X` followed by hexadecimal digits reads them in base 16 |
| JsText.DigitRunStops | app/my-room/page.tsx:51 | the digit run ends exactly at the first character that is not a digit of the base |
| JsText.ParseIntStopsAtNonDigit | app/my-room/page.tsx:51 | what follows the decimal digits is ignored, so `"1.5"` reads as 1 |
| JsText.ParseIntNaN | app/my-room/page.tsx:51 | blank input, a lone sign and a bare `0x` all read as `NaN` |
| JsText.ToUpperAscii | app/chat/page.tsx:106 | a lower-case letter becomes the matching capital, and other characters stay as they are |
| UpdatesRoute.StripMarker | app/api/updates/route.ts:45 | a line starting with `*` or `-` gets shorter and no longer starts with whitespace; any other line is returned unchanged |
| UpdatesRoute.StripMarkerRemovesOneMarker | app/api/updates/route.ts:45 | only the first marker and the whitespace directly after it are removed; the rest is a suffix of the line |
| UpdatesRoute.StripMarkerEdgeless | app/api/updates/route.ts:43-45 | stripping the marker from a trimmed line leaves no whitespace at either end |
| UpdatesRoute.Contribution | app/api/updates/route.ts:43-45 | each line contributes at most one entry, with no whitespace at either end |
| UpdatesRoute.NormalizeLines | app/api/updates/route.ts:43-45 | never more entries than lines, and no entry starts or ends with whitespace |
| UpdatesRoute.NonBlankFrom | app/api/updates/route.ts:44 | the positions it lists are in range |
| UpdatesRoute.NonBlankFromExact | app/api/updates/route.ts:44 | it lists exactly the lines that are non-empty after trimming, in strictly increasing order |
| UpdatesRoute.NormalizeFollowsNonBlankLines | app/api/updates/route.ts:41-45 | there is one entry per non-blank line, in input order, and entry k is the k-th non-blank line trimmed and stripped of one marker |
| UpdatesRoute.NormalizeFollowsFrom | app/api/updates/route.ts:41-45 | the same correspondence, for every suffix of the lines |
| UpdatesRoute.NormalizeAppend | app/api/updates/route.ts:43-45 | the pipeline works line by line: joined inputs give joined outputs |
| UpdatesRoute.Bullets | app/api/updates/route.ts:41-45 | never more entries than newline-separated lines, and no entry starts or ends with whitespace |
| UpdatesRoute.Summary | app/api/updates/route.ts:8-53 | a missing or empty key gives exactly the key-missing message, whatever else happens; with a key, a falsy `rawUpdates` gives exactly the default message; a body that fails to parse, a truthy value whose conversion to text throws (an object with a non-callable `toString`), or a failing generator gives exactly the error message; otherwise the summary is exactly the bullet list of the generated text |
| UpdatesRoute.DoubleMarkerKeepsOne | app/api/updates/route.ts:45 | `"** x"` becomes `"* x"` |
| UpdatesRoute.MarkerOnlyLineIsEmptyEntry | app/api/updates/route.ts:44-45 | a line that is only `-` passes the blank filter and becomes an empty entry |
| Birthday.MonthLabel | app/my-room/page.tsx:50-51 | a month number from 1 to 12 selects entry month−1 of the fixed table; anything else, `NaN` included, renders as "undefined" |
| Birthday.NumberLabel | app/my-room/page.tsx:51 | a day that is not a number renders as "NaN"; a number renders as decimal text that `parseInt` reads back as that number |
| Birthday.LongBirthday | app/my-room/page.tsx:45 | an absent or empty date of birth gives "N/A" |
| Birthday.ShortBirthday | app/mates/page.tsx:30 | an absent or empty date of birth gives "N/A" |
| Birthday.OtherFieldCountsUnchanged | app/my-room/page.tsx:48-53 | a date whose `-`-split does not give exactly three fields is returned unchanged by both renderings (app/mates/page.tsx:31-33 likewise) |
| Birthday.LongBirthdayFields | app/my-room/page.tsx:49-51 | on three fields, the output is the month label of the second field's number, a space, then the third field's number |
| Birthday.LongBirthdayIgnoresYear | app/my-room/page.tsx:51 | changing the year field never changes the output |
| Birthday.LongBirthdayOfDigits | app/my-room/page.tsx:50-51 | for digit fields with month 01..12, the output is month name MM−1, one space, and the day without leading zeros |
| Birthday.DigitsHaveNoDash | app/my-room/page.tsx:48 | a digit field holds no `-`, so it cannot add a field |
| Birthday.LongBirthdayExample | app/my-room/page.tsx:50-51 | `"2000-03-07"` gives `"March 7"` |
| Birthday.ShortBirthdayFields | app/mates/page.tsx:31-32 | on three fields, the output is field 2, `/`, field 3 exactly as written |
| Birthday.ShortBirthdayExamples | app/mates/page.tsx:32 | the fields are copied, not read as numbers: `"1990-03-07"` gives `"03/07"` with its zero padding, and `"a-b-c"` gives `"b/c"` |
| Users.DisplayName | app/chat/page.tsx:80 | the alias when it is non-empty, otherwise the first name |
| Chat.Poll | app/chat/page.tsx:44-49 | after a poll, the local list equals the server's list |
| Chat.PollIdempotent | app/chat/page.tsx:44-49 | polling twice with the same answer is polling once |
| Chat.PollDropsUnconfirmed | app/chat/page.tsx:45-46 | an optimistic message missing from the server's list is gone after the poll |
| Chat.SendMessage | app/chat/page.tsx:74 | a draft that is blank after trimming, or no signed-in user, leaves the view unchanged and sends nothing |
| Chat.SendAppendsOwnMessage | app/chat/page.tsx:75-89 | a send appends exactly one message at the end, carrying the given id and timestamp, the trimmed draft as its text and the alias-or-first-name author; earlier messages are kept, the draft is cleared, the same text and author are posted, and the message is drawn as the sender's own |
| Chat.GifText | app/chat/page.tsx:98 | the GIF text is `[GIF: `, the label, then `]` |
| Chat.SendGif | app/chat/page.tsx:96 | without a signed-in user a GIF pick changes nothing |
| Chat.IsMe | app/chat/page.tsx:134 | a message is the viewer's own only when there is a viewer, and then exactly when its author equals the viewer's alias-or-first-name |
| Chat.IsMeByNameOnly | app/chat/page.tsx:134 | two viewers with the same display name both see a message as their own; with no viewer no message is |
| Chat.GifAppendsOwnMessage | app/chat/page.tsx:97-103 | a GIF pick appends one message `[GIF: label]` at the end, keeps earlier messages and the draft, and posts the same text and author |
| Chat.AddEmoji | app/chat/page.tsx:93 | the emoji is added at the end of the draft; the messages, both pickers and the scroll flag are untouched, so the emoji picker stays open |
| Chat.Initial | app/chat/page.tsx:106 | one character: `?` for an empty name, otherwise the first character upper-cased |
| Actions.Prepend | app/actions.ts:41 | the new item comes first and the earlier list follows it unchanged |
| Actions.GetPraises | app/actions.ts:29-37 | a readable store is returned as stored with no write; an unreadable one has the seed list written and returned |
| Actions.AddPraise | app/actions.ts:39-45 | the last list written is the list returned |
| Actions.GetFeedback | app/actions.ts:59-67 | nothing is written; a readable store is returned as stored, and an unreadable one gives the empty list |
| Actions.AddFeedback | app/actions.ts:69-75 | exactly one write, of the list returned |
| Actions.AddPraisePrepends | app/actions.ts:39-44 | the result is the new praise followed by the earlier list (or the seed), one longer |
| Actions.AddFeedbackPrepends | app/actions.ts:69-74 | the result is the new feedback followed by the earlier list (or nothing), one longer |
| Actions.AddPraiseKeepsDuplicateIds | app/actions.ts:41 | adding a praise whose id is already stored leaves two entries with that id |
| Actions.AddFeedbackKeepsDuplicateIds | app/actions.ts:71 | adding feedback whose id is already stored leaves two entries with that id |
| FeedbackPage.AdminFlag | app/feedback/page.tsx:18-24 | the viewer is administrator exactly when a stored user exists and its alias is `idongcodes` |
| FeedbackPage.Without | app/feedback/page.tsx:36 | the kept entries all come from the list, and none has the deleted id |
| FeedbackPage.Delete | app/feedback/page.tsx:35-37 | a declined confirmation changes nothing and sends nothing; a confirmed one leaves exactly the entries with other ids, in order, and sends the deletion |
| FeedbackPage.DeleteConfirmedCounts | app/feedback/page.tsx:36-37 | after a confirmed delete every entry with another id occurs as many times as before, and none with the id remains |
| FeedbackPage.WithoutCounts | app/feedback/page.tsx:36 | every entry with another id is kept as many times as it occurred, and no entry with the id is kept |
| FeedbackPage.WithoutAppend | app/feedback/page.tsx:36 | deleting works entry by entry, so the kept entries stay in their original order |
| FeedbackPage.WithoutAbsent | app/feedback/page.tsx:36 | deleting an id nobody has leaves the list as it is |
| FeedbackPage.WithoutIdempotent | app/feedback/page.tsx:36 | deleting the same id twice is deleting it once |
| FeedbackPage.Negated | app/feedback/page.tsx:41 | an absent flag negates to true, a present one to its opposite |
| FeedbackPage.MarkRead | app/feedback/page.tsx:42 | same length; entries with the id get the new flag and nothing else changes; other entries are unchanged |
| FeedbackPage.ToggleRead | app/feedback/page.tsx:40-43 | same length; every entry with the id gets `read` set to the negation of the clicked entry's flag (true when absent); every other entry is unchanged; that flag is sent |
| FeedbackPage.ToggleChangesOnlyReadFlags | app/feedback/page.tsx:42 | a toggle changes no field but `read` and no list length |
| FeedbackPage.ToggleTwiceRestores | app/feedback/page.tsx:41-42 | toggling a defined flag twice from what the entry shows restores the list |
| FeedbackPage.ToggleTwiceFromAbsent | app/feedback/page.tsx:41-42 | an absent flag is not restored: two toggles leave it `false` |
| HomePage.UpdateField | app/page.tsx:74-82 | a change event sets the named field and leaves every other field as it was |
| HomePage.UpdateFieldOverwrites | app/page.tsx:76 | a second change to a field replaces the first |
| HomePage.UpdateFieldSameValue | app/page.tsx:76 | writing the value a field already holds changes nothing |
| HomePage.SubmitPraise | app/page.tsx:84-92 | an empty name or message changes nothing and sends nothing (the subject is not checked); otherwise the praise is shown first, sent, and the form reset to name "", role "Tenant", subject "", message "" |
| HomePage.SubmitPraiseSendsForm | app/page.tsx:88-91 | the praise sent has the given id and the form's contents, and the wall equals what `addPraise` returns for the shown list |
| HomePage.BeginFeedbackSubmit | app/page.tsx:96-103 | an empty name or message changes nothing; otherwise the status becomes submitting and the feedback carries the form, the id and the time |
| HomePage.SubmitDisabled | app/page.tsx:265 | the submit button is disabled exactly when the status is not idle |
| HomePage.FinishFeedbackSubmit | app/page.tsx:104-106 | a successful write clears the form and shows success; a failed one leaves the panel as it was |
| HomePage.ResetStatus | app/page.tsx:107 | the timer returns the status to idle and keeps the form |
| HomePage.FeedbackSubmitCycle | app/page.tsx:98-107 | a complete submit runs idle, submitting, success, idle; the button is disabled exactly in the middle two states; the form ends cleared |
| HomePage.FailedFeedbackStaysSubmitting | app/page.tsx:98-104 | a write that throws leaves the status at submitting, the button disabled and the form filled in |
| RouteGuard.Check | app/components/RouteGuard.tsx:19-37 | the visitor is authorised exactly on a public route or with a non-empty session, and is redirected to `/login` exactly when not |
| RouteGuard.Renders | app/components/RouteGuard.tsx:41-45 | an authorised page always draws its children; an unauthorised one draws them exactly on `/`, `/login` or `/join` |
| RouteGuard.PublicIsExact | app/components/RouteGuard.tsx:12-21 | `/login` or `/join` followed by anything is private |
| RouteGuard.PublicRoutesAreListed | app/components/RouteGuard.tsx:12 | exactly `/`, `/login` and `/join` are public |
| RouteGuard.PublicAlwaysAuthorized | app/components/RouteGuard.tsx:21-24 | a public route is authorised with no redirect, whatever the session |
| RouteGuard.EmptySessionIsSignedOut | app/components/RouteGuard.tsx:27-32 | an empty stored session on a private route is refused and sent to `/login` |
| RouteGuard.NothingBeforeCheck | app/components/RouteGuard.tsx:17-45 | before the first check a private page draws nothing and a public one draws its children |
| RouteGuard.RenderAfterCheck | app/components/RouteGuard.tsx:41-45 | after the check a page draws exactly when it is public or a session is stored, and a redirect is issued exactly when it does not draw |
| Notifications.ShownDate | app/notifications/page.tsx:20-30 | the join date is shown exactly when it is present, non-empty and parseable; otherwise the current time |
| Notifications.Render | app/notifications/page.tsx:36 | a template writes a string as itself, a missing field as `undefined` and `null` as `null` |
| Notifications.NameField | app/notifications/page.tsx:17 | the alias when it is a non-empty string, otherwise the first name, whatever it holds |
| Notifications.Welcome | app/notifications/page.tsx:16-39 | the id is `welcome-` followed by the user's id, the name is alias-or-first-name, the message is that name as the template writes it followed by ` has joined the app`, the shown date is the join date when it is non-empty and valid and the current time otherwise, and the timestamp is the raw join date |
| Notifications.WelcomeUsesDisplayName | app/notifications/page.tsx:17-36 | for string names the announced name is the display name the other pages use, and the message is that name then ` has joined the app` |
| Notifications.NamelessUserIsUndefined | app/notifications/page.tsx:17-36 | a user with no alias and no first name is announced as `undefined has joined the app` |
| Notifications.WelcomeMessages | app/notifications/page.tsx:16 | one message per user, in the users' order |
| Notifications.Load | app/notifications/page.tsx:11-47 | the list is replaced only on an ok response, and then message k is the welcome message of user k |
| Notifications.WelcomeMessagesAppend | app/notifications/page.tsx:16 | the mapping works user by user |
| Notifications.DistinctIds | app/notifications/page.tsx:33 | users with different ids get messages with different ids |
| Notifications.TimestampIgnoresFallback | app/notifications/page.tsx:20-39 | an unparseable join date shows the current time but keeps the raw join date as the timestamp |
| Notifications.ValidJoinDateShown | app/notifications/page.tsx:20-30 | a non-empty join date that parses to a valid time is the date shown |

## Left out

- The text generator in `app/api/updates/route.ts` (client construction, model choice, prompt) is an input: its text, or its failure. The client constructor is assumed not to throw before the body is read.
- `JsText.ToUpperAscii` and `Chat.Initial`: `toUpperCase` is modelled for ASCII letters only. Other letters, and characters that upper-case to several characters, are kept as they are.
- Strings are sequences of Unicode scalar values, not UTF-16 code units. `charAt(0)` on a name starting with a character outside the Basic Multilingual Plane returns half a surrogate pair in the source, but the whole character here.
- `Birthday.LongBirthday`: `parseInt` is exact on integers of any size. JavaScript rounds values beyond 2^53 and prints very large ones in exponent notation.
- `JSON.parse` of the session entry is not modelled. The feedback page reads a stored user; a malformed entry, which throws in the source, is not covered.
- `Chat.Poll`: the source compares `JSON.stringify` of the two lists. The model compares values, assuming equal serialisations come from equal lists.
- Scrolling (the near-bottom heuristic and the scroll-into-view timers), the 2-second poll interval and the 3-second status timer are left out. `nearBottom := true` after a send is kept.
- Ids from `Date.now()`, `new Date().toISOString()` and all locale date and time formatting are parameters or left out.
- `getChats`, `addChat`, `deleteFeedback`, `toggleFeedbackRead`, `getUsers`, `registerUser` and `loginUser` are not part of this model. They are treated as opaque server calls, and the calls to them are returned as values.
- File and database I/O, and `revalidatePath`, are left out. A store read is its result (a parsed list, or a failure to read or parse it). The writes an action makes are returned as a list.
- `Actions.GetPraises`, `Actions.AddPraise`, `Actions.AddFeedback`: writes are assumed to succeed. In the source a failed `writeFile` rejects the action, so no list is returned; that outcome is not modelled.
- The login and join pages, the auto-logout timer, the media player and the purely presentational components are left out.
- `Actions.Feedback` carries a `read` flag that the `Feedback` type in `app/actions.ts` does not declare. The feedback page reads and writes it, so it is modelled as optional.
- `Notifications.ApiUser`: the user id is kept as the string it renders to in the template.
- `Users.User`: a missing alias or first name is the empty string. Both are falsy, so `||`, the emptiness tests and `getInitial` treat them alike. A signed-in user missing both names gets the author name `undefined` in the source and `""` here. The notifications page, which writes the name into text, models missing and `null` fields separately.

=== FILE: actions.dfy ===
/** The server actions that keep praise and feedback in JSON files. A file
    read is an input (its parsed list, or a failure to read or parse it); the
    files written are returned in the order they are written. */
module Actions {
  import opened Wrappers

  datatype Praise = Praise(id: int, name: string, role: string, subject: string, message: string)

  /** A feedback record. `read` is absent until an administrator toggles it. */
  datatype Feedback = Feedback(
    id: int, name: string, role: string, subject: string, message: string,
    submittedAt: string, read: Option<bool>)

  /** What reading and parsing a store file gave. */
  datatype StoreRead<T> = Loaded(items: seq<T>) | Unreadable

  /** What an action returns, and every list it writes to its file, in order. */
  datatype Outcome<T> = Outcome(result: seq<T>, writes: seq<seq<T>>)

  const PraiseSeed: seq<Praise> := [
    Praise(1, "Idong", "Tenant", "\U{1F680} \U{1F942}",
           "Excited to be working on this app. I hope you all enjoy it and come to use it daily \U{1F4AA}\U{1F3FD}")
  ]

  /** `[item, ...list]`: the new item first, the old list after it unchanged. */
  function Prepend<T>(item: T, list: seq<T>): (r: seq<T>)
    ensures |r| == |list| + 1
    ensures r[0] == item && r[1..] == list
  {
    [item] + list
  }

  /** `getPraises`: the stored list; when the file cannot be read, the seed
      list is written and returned. */
  function GetPraises(store: StoreRead<Praise>): (r: Outcome<Praise>)
    ensures store.Loaded? ==> r == Outcome(store.items, [])
    ensures store.Unreadable? ==> r.result == PraiseSeed && r.writes == [PraiseSeed]
  {
    match store
    case Loaded(items) => Outcome(items, [])
    case Unreadable => Outcome(PraiseSeed, [PraiseSeed])
  }

  /** `addPraise`: reads the list as `getPraises` does, puts the new praise
      first, writes that list and returns it. */
  function AddPraise(store: StoreRead<Praise>, newPraise: Praise): (r: Outcome<Praise>)
    ensures |r.writes| >= 1 && r.writes[|r.writes| - 1] == r.result
  {
    var before := GetPraises(store);
    var updated := Prepend(newPraise, before.result);
    Outcome(updated, before.writes + [updated])
  }

  /** `getFeedback`: the stored list, or the empty list when the file cannot
      be read (nothing is written). */
  function GetFeedback(store: StoreRead<Feedback>): (r: Outcome<Feedback>)
    ensures r.writes == []
    ensures store.Loaded? ==> r.result == store.items
    ensures store.Unreadable? ==> r.result == []
  {
    match store
    case Loaded(items) => Outcome(items, [])
    case Unreadable => Outcome([], [])
  }

  /** `addFeedback`: puts the new feedback in front of the stored list, writes
      that list and returns it. */
  function AddFeedback(store: StoreRead<Feedback>, newFeedback: Feedback): (r: Outcome<Feedback>)
    ensures r.writes == [r.result]
  {
    var updated := Prepend(newFeedback, GetFeedback(store).result);
    Outcome(updated, [updated])
  }

  /** The list a praise is added to: the stored one, or the seed. */
  function PraiseBase(store: StoreRead<Praise>): seq<Praise>
  {
    if store.Loaded? then store.items else PraiseSeed
  }

  /** Adding praise grows the list by one, puts the new praise first and keeps
      the earlier list in order behind it; the file ends up holding exactly
      the returned list. */
  lemma AddPraisePrepends(store: StoreRead<Praise>, newPraise: Praise)
    ensures var r := AddPraise(store, newPraise);
            && |r.result| == |PraiseBase(store)| + 1
            && r.result[0] == newPraise
            && r.result[1..] == PraiseBase(store)
            && r.writes[|r.writes| - 1] == r.result
            && (store.Loaded? ==> |r.writes| == 1)
            && (store.Unreadable? ==> r.writes == [PraiseSeed, r.result])
  {
  }

  /** Adding feedback grows the list by one, puts the new feedback first and
      keeps the earlier list in order behind it. */
  lemma AddFeedbackPrepends(store: StoreRead<Feedback>, newFeedback: Feedback)
    ensures var base := if store.Loaded? then store.items else [];
            var r := AddFeedback(store, newFeedback);
            && |r.result| == |base| + 1
            && r.result[0] == newFeedback
            && r.result[1..] == base
  {
  }

  /** Nothing is deduplicated: adding a praise whose id is already stored
      leaves two entries with that id. */
  lemma AddPraiseKeepsDuplicateIds(store: StoreRead<Praise>, newPraise: Praise, i: nat)
    requires i < |PraiseBase(store)| && PraiseBase(store)[i].id == newPraise.id
    ensures var r := AddPraise(store, newPraise).result;
            r[0].id == newPraise.id && r[i + 1].id == newPraise.id
  {
  }

  /** The same holds for feedback. */
  lemma AddFeedbackKeepsDuplicateIds(store: StoreRead<Feedback>, newFeedback: Feedback, i: nat)
    requires store.Loaded? && i < |store.items| && store.items[i].id == newFeedback.id
    ensures var r := AddFeedback(store, newFeedback).result;
            r[0].id == newFeedback.id && r[i + 1].id == newFeedback.id
  {
  }
}

=== FILE: birthday.dfy ===
/** The two birthday renderings of a `YYYY-MM-DD` date of birth: the profile
    page writes "March 7", the house-mates directory writes "03/07". Both split
    on `-` instead of parsing a date, so any three-field string is accepted
    and anything else is shown as it was stored. */
module Birthday {
  import opened Wrappers
  import opened JsText

  const MonthNames: seq<string> :=
    ["January", "February", "March", "April", "May", "June", "July",
     "August", "September", "October", "November", "December"]

  /** `${monthNames[parseInt(field) - 1]}`: a month number outside 1..12, or
      `NaN`, indexes past the table and renders as "undefined". */
  function MonthLabel(month: Option<int>): (name: string)
    ensures month.Some? && 1 <= month.value <= 12 ==> name == MonthNames[month.value - 1]
    ensures !(month.Some? && 1 <= month.value <= 12) ==> name == "undefined"
  {
    if month.Some? && 1 <= month.value <= 12 then MonthNames[month.value - 1] else "undefined"
  }

  /** `${parseInt(field)}`: the number in decimal, or "NaN". */
  function NumberLabel(n: Option<int>): (r: string)
    ensures n.None? ==> r == "NaN"
    ensures n.Some? ==> ParseInt(r) == n
  {
    match n
    case None => "NaN"
    case Some(v) => ParseIntToString(v); IntToString(v)
  }

  predicate IsDateOfBirthAbsent(dob: Option<string>)
  {
    dob == None || dob == Some([])
  }

  /** The profile page's birthday: month name, a space, then the day as a
      number (so without zero padding). */
  function LongBirthday(dob: Option<string>): (r: string)
    ensures IsDateOfBirthAbsent(dob) ==> r == "N/A"
  {
    if IsDateOfBirthAbsent(dob) then "N/A"
    else
      var parts := Split(dob.value, '-');
      if |parts| == 3 then MonthLabel(ParseInt(parts[1])) + " " + NumberLabel(ParseInt(parts[2]))
      else dob.value
  }

  /** The directory's birthday: the month and day fields as written, joined
      by `/`. */
  function ShortBirthday(dob: Option<string>): (r: string)
    ensures IsDateOfBirthAbsent(dob) ==> r == "N/A"
  {
    if IsDateOfBirthAbsent(dob) then "N/A"
    else
      var parts := Split(dob.value, '-');
      if |parts| == 3 then parts[1] + "/" + parts[2]
      else dob.value
  }

  /** Any date of birth that does not hold exactly two `-` separators is
      shown unchanged by both renderings. */
  lemma OtherFieldCountsUnchanged(dob: string)
    requires dob != [] && multiset(dob)['-'] != 2
    ensures LongBirthday(Some(dob)) == dob
    ensures ShortBirthday(Some(dob)) == dob
  {
    SplitCount(dob, '-');
  }

  /** On three fields the long form reads only the month and day fields; the
      year field plays no part. */
  lemma LongBirthdayFields(year: string, month: string, day: string)
    requires '-' !in year && '-' !in month && '-' !in day
    ensures LongBirthday(Some(year + "-" + month + "-" + day)) ==
            MonthLabel(ParseInt(month)) + " " + NumberLabel(ParseInt(day))
  {
    SplitThree(year, month, day, '-');
    assert year + "-" + month + "-" + day == year + ['-'] + month + ['-'] + day;
  }

  lemma LongBirthdayIgnoresYear(year1: string, year2: string, month: string, day: string)
    requires '-' !in year1 && '-' !in year2 && '-' !in month && '-' !in day
    ensures LongBirthday(Some(year1 + "-" + month + "-" + day)) ==
            LongBirthday(Some(year2 + "-" + month + "-" + day))
  {
    LongBirthdayFields(year1, month, day);
    LongBirthdayFields(year2, month, day);
  }

  /** For a date written in digits with a month from 01 to 12, the long form
      is entry MM-1 of the month table, a space, and the day's value written
      without leading zeros. */
  lemma LongBirthdayOfDigits(year: string, month: string, day: string)
    requires '-' !in year
    requires |month| >= 1 && AllDigits(month, 10) && 1 <= ValueOf(month, 10) <= 12
    requires |day| >= 1 && AllDigits(day, 10)
    ensures LongBirthday(Some(year + "-" + month + "-" + day)) ==
            MonthNames[ValueOf(month, 10) - 1] + " " + NatToString(ValueOf(day, 10))
  {
    DigitsHaveNoDash(month);
    DigitsHaveNoDash(day);
    LongBirthdayFields(year, month, day);
    ParseDigits(month);
    ParseDigits(day);
    NumberLabelOfNat(ValueOf(day, 10));
  }

  /** A non-negative number is written in plain decimal. */
  lemma NumberLabelOfNat(v: nat)
    ensures NumberLabel(Some(v)) == NatToString(v)
  {
  }

  lemma DigitsHaveNoDash(s: string)
    requires AllDigits(s, 10)
    ensures '-' !in s
  {
  }

  lemma LongBirthdayExample(dob: string)
    requires dob == "2000-03-07"
    ensures LongBirthday(Some(dob)) == "March 7"
  {
    var year, month, day := "2000", "03", "07";
    assert dob == year + "-" + month + "-" + day;
    assert ValueOf(month, 10) == 3 by { assert month[..1] == "0"; assert "0"[..0] == ""; }
    assert ValueOf(day, 10) == 7 by { assert day[..1] == "0"; assert "0"[..0] == ""; }
    LongBirthdayOfDigits(year, month, day);
    assert NatToString(7) == "7";
  }

  /** On three fields the short form is the second field, `/`, the third,
      kept exactly as written. */
  lemma ShortBirthdayFields(year: string, month: string, day: string)
    requires '-' !in year && '-' !in month && '-' !in day
    ensures ShortBirthday(Some(year + "-" + month + "-" + day)) == month + "/" + day
  {
    SplitThree(year, month, day, '-');
    assert year + "-" + month + "-" + day == year + ['-'] + month + ['-'] + day;
  }

  /** The fields are copied, not read as numbers: zero padding stays, and
      fields that are not numbers at all pass through. */
  lemma ShortBirthdayExamples(padded: string, letters: string)
    requires padded == "1990-03-07" && letters == "a-b-c"
    ensures ShortBirthday(Some(padded)) == "03/07"
    ensures ShortBirthday(Some(letters)) == "b/c"
  {
    assert padded == "1990" + "-" + "03" + "-" + "07";
    ShortBirthdayFields("1990", "03", "07");
    assert letters == "a" + "-" + "b" + "-" + "c";
    ShortBirthdayFields("a", "b", "c");
  }
}

=== FILE: chat.dfy ===
/** The house chat page: the message list a viewer sees, the optimistic
    appends for typed messages and GIFs, and the poll that replaces the list
    with the server's. Message ids and timestamps come from the clock and are
    parameters; the server call a send makes is returned as a value. */
module Chat {
  import opened Wrappers
  import opened JsText
  import opened Users

  datatype ChatMessage = ChatMessage(id: int, author: string, text: string, timestamp: string)

  /** The page state that the handlers touch. */
  datatype ChatView = ChatView(
    messages: seq<ChatMessage>,
    draft: string,
    showEmojiPicker: bool,
    showGifPicker: bool,
    nearBottom: bool)

  /** The `addChat(text, author)` call a send makes after updating the view. */
  datatype ChatPost = ChatPost(text: string, author: string)

  /** A handler's effect: the next view and the server call, if any. */
  datatype SendStep = SendStep(view: ChatView, post: Option<ChatPost>)

  /** One poll: the list is replaced by the server's list unless the two
      already serialise alike, in which case the current list stays. */
  function Poll(current: seq<ChatMessage>, server: seq<ChatMessage>): (r: seq<ChatMessage>)
    ensures r == server
  {
    if current != server then server else current
  }

  /** Polling twice with the same answer is the same as polling once. */
  lemma PollIdempotent(current: seq<ChatMessage>, server: seq<ChatMessage>)
    ensures Poll(Poll(current, server), server) == Poll(current, server)
  {
  }

  /** An optimistic message the server list does not hold is gone after the poll. */
  lemma PollDropsUnconfirmed(current: seq<ChatMessage>, server: seq<ChatMessage>, m: ChatMessage)
    requires m in current && m !in server
    ensures m !in Poll(current, server)
  {
  }

  /** `handleSendMessage`: with a non-blank draft and a signed-in user, the
      trimmed draft is appended under the user's display name, the draft is
      cleared, both pickers close and the view sticks to the bottom. */
  function SendMessage(view: ChatView, user: Option<User>, id: int, timestamp: string): (r: SendStep)
    ensures Trim(view.draft) == [] || user == None ==> r == SendStep(view, None)
  {
    var text := Trim(view.draft);
    if text == [] || user == None then SendStep(view, None)
    else
      var author := AuthorName(user.value);
      SendStep(
        ChatView(view.messages + [ChatMessage(id, author, text, timestamp)], [], false, false, true),
        Some(ChatPost(text, author)))
  }

  /** The text a GIF pick posts. */
  function GifText(gifLabel: string): (text: string)
    ensures |text| == |gifLabel| + 7
    ensures text[..6] == "[GIF: " && text[6..|text| - 1] == gifLabel && text[|text| - 1] == ']'
  {
    "[GIF: " + gifLabel + "]"
  }

  /** `handleGifClick`: with a signed-in user, a GIF message is appended under
      the user's display name and the GIF picker closes; the draft is kept. */
  function SendGif(view: ChatView, user: Option<User>, gifLabel: string, id: int, timestamp: string): (r: SendStep)
    ensures user == None ==> r == SendStep(view, None)
  {
    if user == None then SendStep(view, None)
    else
      var author := AuthorName(user.value);
      var text := GifText(gifLabel);
      SendStep(
        view.(messages := view.messages + [ChatMessage(id, author, text, timestamp)],
              showGifPicker := false, nearBottom := true),
        Some(ChatPost(text, author)))
  }

  /** `handleEmojiClick`: the emoji goes at the end of the draft and nothing
      else changes, so the picker stays open for further picks. */
  function AddEmoji(view: ChatView, emoji: string): (r: ChatView)
    ensures |r.draft| == |view.draft| + |emoji|
    ensures r.draft[..|view.draft|] == view.draft && r.draft[|view.draft|..] == emoji
    ensures r.messages == view.messages
    ensures r.showEmojiPicker == view.showEmojiPicker && r.showGifPicker == view.showGifPicker
    ensures r.nearBottom == view.nearBottom
  {
    view.(draft := view.draft + emoji)
  }

  /** Whether a message is drawn as the viewer's own: there is a viewer and
      the message's author equals the viewer's display name. */
  function IsMe(msg: ChatMessage, user: Option<User>): (isMe: bool)
    ensures isMe ==> user.Some?
    ensures user.Some? ==> (isMe <==> msg.author == DisplayName(user.value.alias, user.value.firstName))
  {
    user.Some? && msg.author == AuthorName(user.value)
  }

  /** Ownership is decided by name alone: two viewers with the same display
      name both see a message as their own, and a message by another name is
      nobody's. */
  lemma IsMeByNameOnly(msg: ChatMessage, a: User, b: User)
    requires AuthorName(a) == AuthorName(b)
    ensures IsMe(msg, Some(a)) <==> IsMe(msg, Some(b))
    ensures !IsMe(msg, None)
  {
  }

  /** `getInitial`: the first character upper-cased, or `?` for an empty name. */
  function Initial(name: string): (r: string)
    ensures |r| == 1
    ensures r == "?" <==> name == [] || name[0] == '?'
    ensures name != [] ==> !('a' <= r[0] <= 'z')
    ensures name != [] && !('a' <= name[0] <= 'z') ==> r[0] == name[0]
    ensures name != [] && 'a' <= name[0] <= 'z' ==>
              'A' <= r[0] <= 'Z' && r[0] as int - 'A' as int == name[0] as int - 'a' as int
  {
    if name == [] then "?" else [ToUpperAscii(name[0])]
  }

  /** A send that goes through appends exactly one message at the end, leaves
      every earlier message in place, posts the same text and author it shows,
      and the new message is drawn as the sender's own. */
  lemma SendAppendsOwnMessage(view: ChatView, user: Option<User>, id: int, timestamp: string)
    requires Trim(view.draft) != [] && user.Some?
    ensures var r := SendMessage(view, user, id, timestamp);
            && |r.view.messages| == |view.messages| + 1
            && r.view.messages[..|view.messages|] == view.messages
            && var m := r.view.messages[|view.messages|];
               && m == ChatMessage(id, m.author, Trim(view.draft), timestamp)
               && r.post == Some(ChatPost(m.text, m.author))
               && m.text != [] && Edgeless(m.text)
               && (user.value.alias != [] ==> m.author == user.value.alias)
               && (user.value.alias == [] ==> m.author == user.value.firstName)
               && IsMe(m, user)
               && r.view.draft == []
  {
  }

  /** A GIF send appends exactly one message whose text wraps the label,
      keeps the earlier messages and the draft, and is the sender's own. */
  lemma GifAppendsOwnMessage(view: ChatView, user: Option<User>, gifLabel: string, id: int, timestamp: string)
    requires user.Some?
    ensures var r := SendGif(view, user, gifLabel, id, timestamp);
            && |r.view.messages| == |view.messages| + 1
            && r.view.messages[..|view.messages|] == view.messages
            && var m := r.view.messages[|view.messages|];
               && m.text == "[GIF: " + gifLabel + "]"
               && r.post == Some(ChatPost(m.text, m.author))
               && IsMe(m, user)
               && r.view.draft == view.draft
  {
  }
}

=== FILE: feedback_page.dfy ===
/** The feedback log page: who counts as the administrator, and the two
    optimistic list updates behind the administrator's toolbar. The server
    call each update makes is returned as a value; the confirmation dialog's
    answer is a parameter. */
module FeedbackPage {
  import opened Wrappers
  import opened Users
  import opened Actions

  const AdminAlias: string := "idongcodes"

  /** The page's `isAdmin` flag after it has read the session: it starts
      false and is set only when a stored user has exactly the admin alias. */
  function AdminFlag(stored: Option<User>): (isAdmin: bool)
    ensures isAdmin <==> stored.Some? && stored.value.alias == AdminAlias
  {
    match stored
    case None => false
    case Some(user) => user.alias == AdminAlias
  }

  /** The server call an update makes after changing the view. */
  datatype ServerCall = DeleteCall(id: int) | ToggleCall(id: int, read: bool)

  /** An update's effect: the next list and the server call, if any. */
  datatype Step = Step(list: seq<Feedback>, call: Option<ServerCall>)

  /** The entries whose id differs from `id`, in their original order. */
  function Without(list: seq<Feedback>, id: int): (r: seq<Feedback>)
    ensures |r| <= |list|
    ensures forall f :: f in r ==> f in list && f.id != id
  {
    if list == [] then []
    else if list[0].id == id then Without(list[1..], id)
    else [list[0]] + Without(list[1..], id)
  }

  /** `handleDelete`: a declined confirmation changes nothing; otherwise
      every entry with the id goes and the deletion is sent. */
  function Delete(list: seq<Feedback>, id: int, confirmed: bool): (r: Step)
    ensures !confirmed ==> r == Step(list, None)
    ensures confirmed ==> r.call == Some(DeleteCall(id)) && r.list == Without(list, id)
  {
    if !confirmed then Step(list, None)
    else Step(Without(list, id), Some(DeleteCall(id)))
  }

  /** Deleting keeps exactly the entries with other ids, each as many times
      as before. */
  lemma {:induction false} WithoutCounts(list: seq<Feedback>, id: int, f: Feedback)
    ensures multiset(Without(list, id))[f] == if f.id == id then 0 else multiset(list)[f]
  {
    if list != [] {
      WithoutCounts(list[1..], id, f);
      assert list == [list[0]] + list[1..];
    }
  }

  /** Deleting works entry by entry, so the order of what is kept is the
      order of the list. */
  lemma {:induction false} WithoutAppend(a: seq<Feedback>, b: seq<Feedback>, id: int)
    ensures Without(a + b, id) == Without(a, id) + Without(b, id)
  {
    if a == [] {
      assert a + b == b;
    } else {
      assert (a + b)[1..] == a[1..] + b;
      WithoutAppend(a[1..], b, id);
    }
  }

  /** A confirmed delete keeps every entry with another id as many times as
      it occurred and drops every entry with the id. */
  lemma DeleteConfirmedCounts(list: seq<Feedback>, id: int, f: Feedback)
    ensures multiset(Delete(list, id, true).list)[f] == if f.id == id then 0 else multiset(list)[f]
  {
    WithoutCounts(list, id, f);
  }

  /** A list holding no entry with the id is left as it is. */
  lemma {:induction false} WithoutAbsent(list: seq<Feedback>, id: int)
    requires forall k :: 0 <= k < |list| ==> list[k].id != id
    ensures Without(list, id) == list
  {
    if list != [] {
      WithoutAbsent(list[1..], id);
    }
  }

  /** Deleting the same id twice is the same as deleting it once. */
  lemma WithoutIdempotent(list: seq<Feedback>, id: int)
    ensures Without(Without(list, id), id) == Without(list, id)
  {
    var r := Without(list, id);
    forall k | 0 <= k < |r|
      ensures r[k].id != id
    {
      assert r[k] in r;
    }
    WithoutAbsent(r, id);
  }

  /** `!currentStatus`: an absent flag counts as false, so it becomes true. */
  function Negated(current: Option<bool>): (b: bool)
    ensures current == None ==> b
    ensures current.Some? ==> b == !current.value
  {
    match current
    case None => true
    case Some(v) => !v
  }

  /** Every entry with the id gets the new read flag; the others are kept. */
  function MarkRead(list: seq<Feedback>, id: int, read: bool): (r: seq<Feedback>)
    ensures |r| == |list|
    ensures forall k :: 0 <= k < |list| && list[k].id != id ==> r[k] == list[k]
    ensures forall k :: 0 <= k < |list| && list[k].id == id ==> r[k] == list[k].(read := Some(read))
  {
    if list == [] then []
    else
      var rest := MarkRead(list[1..], id, read);
      if list[0].id == id then [list[0].(read := Some(read))] + rest else [list[0]] + rest
  }

  /** `handleToggleRead(id, currentStatus)`: the flag of the clicked entry is
      negated and written to every entry with that id, and the new flag is sent. */
  function ToggleRead(list: seq<Feedback>, id: int, current: Option<bool>): (r: Step)
    ensures |r.list| == |list|
    ensures forall k :: 0 <= k < |list| && list[k].id == id ==>
              r.list[k] == list[k].(read := Some(Negated(current)))
    ensures forall k :: 0 <= k < |list| && list[k].id != id ==> r.list[k] == list[k]
    ensures r.call == Some(ToggleCall(id, Negated(current)))
  {
    var newStatus := Negated(current);
    Step(MarkRead(list, id, newStatus), Some(ToggleCall(id, newStatus)))
  }

  /** A toggle changes nothing but the read flag: the list keeps its length,
      and each entry keeps its id, name, role, subject, message and time. */
  lemma ToggleChangesOnlyReadFlags(list: seq<Feedback>, id: int, current: Option<bool>)
    ensures var r := ToggleRead(list, id, current).list;
            && |r| == |list|
            && forall k :: 0 <= k < |list| ==> r[k].(read := list[k].read) == list[k]
  {
  }

  /** Toggling the clicked entry twice, each time from the flag it shows,
      restores a defined flag, provided the entries sharing its id show the
      same flag. */
  lemma ToggleTwiceRestores(list: seq<Feedback>, k: nat)
    requires k < |list| && list[k].read.Some?
    requires forall j :: 0 <= j < |list| && list[j].id == list[k].id ==> list[j].read == list[k].read
    ensures var once := ToggleRead(list, list[k].id, list[k].read).list;
            ToggleRead(once, once[k].id, once[k].read).list == list
  {
    var once := ToggleRead(list, list[k].id, list[k].read).list;
    var twice := ToggleRead(once, once[k].id, once[k].read).list;
    assert once[k].id == list[k].id;
    assert Negated(once[k].read) == list[k].read.value;
    forall j | 0 <= j < |list|
      ensures twice[j] == list[j]
    {
    }
  }

  /** An absent flag is not restored: two toggles leave it explicitly false. */
  lemma ToggleTwiceFromAbsent(list: seq<Feedback>, k: nat)
    requires k < |list| && list[k].read == None
    ensures var once := ToggleRead(list, list[k].id, list[k].read).list;
            ToggleRead(once, once[k].id, once[k].read).list[k] == list[k].(read := Some(false))
  {
  }
}

=== FILE: home_page.dfy ===
/** The landing page's two forms: the praise wall (optimistically prepended)
    and the feedback form with its submit status. Ids and submission times
    come from the clock and are parameters; the server call a submit makes is
    returned as a value, and whether the feedback write succeeded is an input. */
module HomePage {
  import opened Wrappers
  import opened Actions

  /** The fields both forms share. */
  datatype Form = Form(name: string, role: string, subject: string, message: string)

  /** What a form holds when the page loads and after a submit. */
  const EmptyForm: Form := Form("", "Tenant", "", "")

  /** The `name` attribute of the input that changed. */
  datatype FormField = NameField | RoleField | SubjectField | MessageField

  /** The value a field of the form holds. */
  function FieldValue(form: Form, field: FormField): string
  {
    match field
    case NameField => form.name
    case RoleField => form.role
    case SubjectField => form.subject
    case MessageField => form.message
  }

  /** `setForm(prev => ({ ...prev, [name]: value }))`. */
  function UpdateField(form: Form, field: FormField, value: string): (r: Form)
    ensures FieldValue(r, field) == value
    ensures forall other :: other != field ==> FieldValue(r, other) == FieldValue(form, other)
  {
    match field
    case NameField => form.(name := value)
    case RoleField => form.(role := value)
    case SubjectField => form.(subject := value)
    case MessageField => form.(message := value)
  }

  /** A form is equal to another exactly when every field holds the same value. */
  lemma FormsEqualByFields(a: Form, b: Form)
    requires forall field :: FieldValue(a, field) == FieldValue(b, field)
    ensures a == b
  {
    assert FieldValue(a, NameField) == FieldValue(b, NameField);
    assert FieldValue(a, RoleField) == FieldValue(b, RoleField);
    assert FieldValue(a, SubjectField) == FieldValue(b, SubjectField);
    assert FieldValue(a, MessageField) == FieldValue(b, MessageField);
  }

  /** Writing a field and then writing it again keeps only the second value. */
  lemma UpdateFieldOverwrites(form: Form, field: FormField, v1: string, v2: string)
    ensures UpdateField(UpdateField(form, field, v1), field, v2) == UpdateField(form, field, v2)
  {
    var a := UpdateField(UpdateField(form, field, v1), field, v2);
    var b := UpdateField(form, field, v2);
    FormsEqualByFields(a, b);
  }

  /** Writing the value a field already holds changes nothing. */
  lemma UpdateFieldSameValue(form: Form, field: FormField)
    ensures UpdateField(form, field, FieldValue(form, field)) == form
  {
    FormsEqualByFields(UpdateField(form, field, FieldValue(form, field)), form);
  }

  /** Both submit handlers return early when the name or the message is
      empty; the subject and the role are not checked. */
  predicate Submittable(form: Form)
  {
    form.name != [] && form.message != []
  }

  /** The praise wall and its form. */
  datatype PraiseWall = PraiseWall(praises: seq<Praise>, form: Form)

  /** A submit's effect on the wall and the `addPraise` call, if any. */
  datatype PraiseStep = PraiseStep(wall: PraiseWall, call: Option<Praise>)

  /** `handlePraiseSubmit`: a complete form becomes a praise with the given
      id, shown first on the wall and sent; the form is cleared. */
  function SubmitPraise(wall: PraiseWall, id: int): (r: PraiseStep)
    ensures !Submittable(wall.form) ==> r == PraiseStep(wall, None)
    ensures Submittable(wall.form) ==>
              && r.wall.form == EmptyForm
              && r.call.Some?
              && r.wall.praises == Prepend(r.call.value, wall.praises)
  {
    if !Submittable(wall.form) then PraiseStep(wall, None)
    else
      var f := wall.form;
      var newPraise := Praise(id, f.name, f.role, f.subject, f.message);
      PraiseStep(PraiseWall(Prepend(newPraise, wall.praises), EmptyForm), Some(newPraise))
  }

  /** The praise sent carries the given id and exactly what the form held,
      the wall grows by one with the earlier praises after it in order, and
      the wall the page shows is the list the store returns when it already
      held what the page showed. */
  lemma SubmitPraiseSendsForm(wall: PraiseWall, id: int)
    requires Submittable(wall.form)
    ensures var r := SubmitPraise(wall, id);
            var p := r.call.value;
            && p.id == id
            && p.name == wall.form.name && p.role == wall.form.role
            && p.subject == wall.form.subject && p.message == wall.form.message
            && |r.wall.praises| == |wall.praises| + 1
            && r.wall.praises[0] == p && r.wall.praises[1..] == wall.praises
            && r.wall.praises == AddPraise(Loaded(wall.praises), p).result
  {
  }

  /** The three values `feedbackStatus` takes. */
  datatype Status = Idle | Submitting | Success

  /** The submit button is disabled while a submit is in flight and while
      the thank-you shows. */
  function SubmitDisabled(status: Status): (disabled: bool)
    ensures disabled <==> status != Idle
  {
    status == Submitting || status == Success
  }

  datatype FeedbackPanel = FeedbackPanel(form: Form, status: Status)

  /** The first half of `handleFeedbackSubmit`, up to the `addFeedback`
      call: the status becomes submitting and the feedback is built. */
  function BeginFeedbackSubmit(panel: FeedbackPanel, id: int, submittedAt: string): (r: (FeedbackPanel, Option<Feedback>))
    ensures !Submittable(panel.form) ==> r == (panel, None)
    ensures Submittable(panel.form) ==>
              && r.0 == panel.(status := Submitting)
              && r.1 == Some(Feedback(id, panel.form.name, panel.form.role, panel.form.subject,
                                      panel.form.message, submittedAt, None))
  {
    if !Submittable(panel.form) then (panel, None)
    else
      var f := panel.form;
      (panel.(status := Submitting), Some(Feedback(id, f.name, f.role, f.subject, f.message, submittedAt, None)))
  }

  /** The second half, after the awaited write: on success the form is
      cleared and the status becomes success; a write that throws ends the
      handler early, leaving the form and the status as they were. */
  function FinishFeedbackSubmit(panel: FeedbackPanel, written: bool): (r: FeedbackPanel)
    ensures written ==> r == FeedbackPanel(EmptyForm, Success)
    ensures !written ==> r == panel
  {
    if written then FeedbackPanel(EmptyForm, Success) else panel
  }

  /** The timer that fires after the thank-you has shown. */
  function ResetStatus(panel: FeedbackPanel): (r: FeedbackPanel)
    ensures r.status == Idle && r.form == panel.form
  {
    panel.(status := Idle)
  }

  /** A complete submit runs idle, submitting, success, idle; the button is
      disabled exactly in the middle two states, the form ends up cleared,
      and the feedback sent is the form's content, unread flag absent. */
  lemma FeedbackSubmitCycle(form: Form, id: int, submittedAt: string)
    requires Submittable(form)
    ensures var start := FeedbackPanel(form, Idle);
            var (sending, call) := BeginFeedbackSubmit(start, id, submittedAt);
            var done := FinishFeedbackSubmit(sending, true);
            var after := ResetStatus(done);
            && sending.status == Submitting && done.status == Success && after.status == Idle
            && !SubmitDisabled(start.status) && SubmitDisabled(sending.status)
            && SubmitDisabled(done.status) && !SubmitDisabled(after.status)
            && after == FeedbackPanel(EmptyForm, Idle)
            && call.Some? && call.value.id == id && call.value.read == None
            && call.value.name == form.name && call.value.message == form.message
  {
  }

  /** A failed write leaves the button disabled and the form filled in. */
  lemma FailedFeedbackStaysSubmitting(form: Form, id: int, submittedAt: string)
    requires Submittable(form)
    ensures var (sending, _) := BeginFeedbackSubmit(FeedbackPanel(form, Idle), id, submittedAt);
            var r := FinishFeedbackSubmit(sending, false);
            r.status == Submitting && SubmitDisabled(r.status) && r.form == form
  {
  }
}

=== FILE: js_text.dfy ===
/** The pieces of the JavaScript string and number runtime that the pages rely
    on: `trim` and the regex class `\s`, `split` on a one-character separator,
    `parseInt` without a radix, integer-to-string conversion, and ASCII
    upper-casing. Numbers are unbounded integers, so `parseInt` and the
    rendering agree with JavaScript only while the values stay below 2^53
    (exactly representable) and 1e21 (no exponent notation). Strings are
    sequences of characters. */
module JsText {
  import opened Wrappers

  // ---------------------------------------------------------------------------
  // Whitespace and trimming
  // ---------------------------------------------------------------------------

  /** A character that `String.prototype.trim` removes and that the regex class
      `\s` matches: the WhiteSpace set (tab, vertical tab, form feed, space,
      no-break space, byte-order mark and every Zs space) and the
      LineTerminator set (LF, CR, LS, PS). */
  predicate IsWhite(c: char)
  {
    || c == '\t' || c == '\U{B}' || c == '\U{C}' || c == ' '
    || c == '\U{A0}' || c == '\U{FEFF}'
    || c == '\U{1680}' || ('\U{2000}' <= c <= '\U{200A}')
    || c == '\U{202F}' || c == '\U{205F}' || c == '\U{3000}'
    || c == '\n' || c == '\r' || c == '\U{2028}' || c == '\U{2029}'
  }

  predicate AllWhite(s: string)
  {
    forall i :: 0 <= i < |s| ==> IsWhite(s[i])
  }

  /** Neither the first nor the last character is whitespace. */
  predicate Edgeless(s: string)
  {
    s == [] || (!IsWhite(s[0]) && !IsWhite(s[|s| - 1]))
  }

  /** Drops the leading run of whitespace (what the regex `^\s*` matches). */
  function TrimStart(s: string): (r: string)
    ensures |r| <= |s|
    ensures r == [] || !IsWhite(r[0])
  {
    if |s| > 0 && IsWhite(s[0]) then TrimStart(s[1..]) else s
  }

  /** `TrimStart` keeps a suffix and removes only whitespace. */
  lemma {:induction false} TrimStartRemovesWhite(s: string)
    ensures TrimStart(s) == s[|s| - |TrimStart(s)|..]
    ensures AllWhite(s[..|s| - |TrimStart(s)|])
  {
    if |s| > 0 && IsWhite(s[0]) {
      TrimStartRemovesWhite(s[1..]);
      var n := |s| - |TrimStart(s)|;
      assert s[..n] == [s[0]] + s[1..][..n - 1];
      assert s[n..] == s[1..][n - 1..];
    }
  }

  /** Drops the trailing run of whitespace. */
  function TrimEnd(s: string): (r: string)
    ensures |r| <= |s|
    ensures r == [] || !IsWhite(r[|r| - 1])
  {
    if |s| > 0 && IsWhite(s[|s| - 1]) then TrimEnd(s[..|s| - 1]) else s
  }

  /** `TrimEnd` keeps a prefix and removes only whitespace. */
  lemma {:induction false} TrimEndRemovesWhite(s: string)
    ensures TrimEnd(s) == s[..|TrimEnd(s)|]
    ensures AllWhite(s[|TrimEnd(s)|..])
  {
    if |s| > 0 && IsWhite(s[|s| - 1]) {
      TrimEndRemovesWhite(s[..|s| - 1]);
      var n := |TrimEnd(s)|;
      assert s[n..] == s[..|s| - 1][n..] + [s[|s| - 1]];
      assert s[..n] == s[..|s| - 1][..n];
    }
  }

  /** `String.prototype.trim`: whitespace removed from both ends. */
  function Trim(s: string): (r: string)
    ensures |r| <= |s| && Edgeless(r)
  {
    var t := TrimStart(s);
    TrimEndRemovesWhite(t);
    TrimEnd(t)
  }

  /** The trimmed string is a contiguous piece of the input with nothing but
      whitespace on either side of it. */
  lemma TrimIsInfix(s: string)
    ensures exists i :: 0 <= i <= |s| - |Trim(s)| && s[i..i + |Trim(s)|] == Trim(s)
                        && AllWhite(s[..i]) && AllWhite(s[i + |Trim(s)|..])
  {
    var t := TrimStart(s);
    var r := TrimEnd(t);
    var i := |s| - |t|;
    TrimStartRemovesWhite(s);
    TrimEndRemovesWhite(t);
    assert s[i..i + |r|] == r;
    assert s[i + |r|..] == t[|r|..];
  }

  lemma AllWhiteConcat(a: string, b: string)
    requires AllWhite(a) && AllWhite(b)
    ensures AllWhite(a + b)
  {
  }

  /** Trimming is determined by its contract: padding an edgeless string with
      whitespace on either side and trimming gives that string back. */
  lemma {:induction false} TrimPadded(a: string, m: string, b: string)
    requires AllWhite(a) && AllWhite(b) && Edgeless(m)
    ensures Trim(a + m + b) == m
  {
    if m == [] {
      AllWhiteConcat(a, b);
      assert a + m + b == a + b;
      AllWhiteTrimStart(a + b);
    } else {
      assert a + m + b == a + (m + b);
      TrimStartPadded(a, m + b);
      TrimEndPadded(m, b);
    }
  }

  lemma AllWhiteTrimStart(s: string)
    requires AllWhite(s)
    ensures TrimStart(s) == []
  {
  }

  lemma {:induction false} TrimStartPadded(a: string, rest: string)
    requires AllWhite(a)
    requires rest == [] || !IsWhite(rest[0])
    ensures TrimStart(a + rest) == rest
    decreases |a|
  {
    if a != [] {
      assert (a + rest)[1..] == a[1..] + rest;
      TrimStartPadded(a[1..], rest);
    } else {
      assert a + rest == rest;
    }
  }

  lemma {:induction false} TrimEndPadded(rest: string, b: string)
    requires AllWhite(b)
    requires rest == [] || !IsWhite(rest[|rest| - 1])
    ensures TrimEnd(rest + b) == rest
    decreases |b|
  {
    if b != [] {
      assert (rest + b)[..|rest + b| - 1] == rest + b[..|b| - 1];
      TrimEndPadded(rest, b[..|b| - 1]);
    } else {
      assert rest + b == rest;
    }
  }

  /** Trimming an already trimmed string changes nothing. */
  lemma TrimIdempotent(s: string)
    ensures Trim(Trim(s)) == Trim(s)
  {
    var t := Trim(s);
    TrimPadded([], t, []);
    assert [] + t + [] == t;
  }

  // ---------------------------------------------------------------------------
  // split / join on a one-character separator
  // ---------------------------------------------------------------------------

  /** `s.split(sep)` for a one-character separator: every occurrence of `sep`
      ends one piece and starts the next, so `""` gives `[""]` and a trailing
      separator gives a trailing empty piece. */
  function Split(s: string, sep: char): (parts: seq<string>)
    ensures |parts| >= 1
    ensures forall i :: 0 <= i < |parts| ==> sep !in parts[i]
  {
    if s == [] then [[]]
    else
      var rest := Split(s[1..], sep);
      if s[0] == sep then [[]] + rest
      else [[s[0]] + rest[0]] + rest[1..]
  }

  /** There is one more piece than there are separators. */
  lemma {:induction false} SplitCount(s: string, sep: char)
    ensures |Split(s, sep)| == multiset(s)[sep] + 1
  {
    if s != [] {
      SplitCount(s[1..], sep);
      assert s == [s[0]] + s[1..];
      assert multiset(s) == multiset{s[0]} + multiset(s[1..]);
    }
  }

  /** `parts.join(sep)`. */
  function Join(parts: seq<string>, sep: char): string
  {
    if parts == [] then []
    else if |parts| == 1 then parts[0]
    else parts[0] + [sep] + Join(parts[1..], sep)
  }

  /** Joining the pieces with the separator restores the string. */
  lemma {:induction false} JoinSplit(s: string, sep: char)
    ensures Join(Split(s, sep), sep) == s
  {
    if s != [] {
      JoinSplit(s[1..], sep);
      var rest := Split(s[1..], sep);
      var parts := Split(s, sep);
      assert s == [s[0]] + s[1..];
      if s[0] == sep {
        assert parts == [[]] + rest;
        assert Join(parts, sep) == [] + [sep] + Join(rest, sep);
      } else if |rest| == 1 {
        assert parts == [[s[0]] + rest[0]];
      } else {
        assert parts == [[s[0]] + rest[0]] + rest[1..];
        assert parts[1..] == rest[1..];
        assert Join(parts, sep) == [s[0]] + rest[0] + [sep] + Join(rest[1..], sep);
        assert Join(rest, sep) == rest[0] + [sep] + Join(rest[1..], sep);
      }
    }
  }

  /** Splitting pieces that do not contain the separator, joined by it, gives
      the pieces back. */
  lemma {:induction false} SplitJoin(parts: seq<string>, sep: char)
    requires |parts| >= 1
    requires forall i :: 0 <= i < |parts| ==> sep !in parts[i]
    ensures Split(Join(parts, sep), sep) == parts
    decreases |parts|
  {
    if |parts| == 1 {
      SplitNoSeparator(parts[0], sep);
    } else {
      SplitJoin(parts[1..], sep);
      SplitPrefix(parts[0], Join(parts[1..], sep), sep);
      assert parts == [parts[0]] + parts[1..];
    }
  }

  lemma {:induction false} SplitNoSeparator(s: string, sep: char)
    requires sep !in s
    ensures Split(s, sep) == [s]
  {
    if s != [] {
      assert sep !in s[1..] by { assert forall c :: c in s[1..] ==> c in s; }
      SplitNoSeparator(s[1..], sep);
      assert s == [s[0]] + s[1..];
    }
  }

  /** A separator-free head followed by the separator contributes exactly one piece. */
  lemma {:induction false} SplitPrefix(head: string, tail: string, sep: char)
    requires sep !in head
    ensures Split(head + [sep] + tail, sep) == [head] + Split(tail, sep)
  {
    if head == [] {
      assert head + [sep] + tail == [sep] + tail;
      assert ([sep] + tail)[1..] == tail;
    } else {
      var s := head + [sep] + tail;
      assert s[1..] == head[1..] + [sep] + tail;
      assert sep !in head[1..] by { assert forall c :: c in head[1..] ==> c in head; }
      SplitPrefix(head[1..], tail, sep);
      assert head == [head[0]] + head[1..];
    }
  }

  /** A three-field string with separator-free fields splits into those fields. */
  lemma SplitThree(a: string, b: string, c: string, sep: char)
    requires sep !in a && sep !in b && sep !in c
    ensures Split(a + [sep] + b + [sep] + c, sep) == [a, b, c]
  {
    SplitNoSeparator(c, sep);
    SplitPrefix(b, c, sep);
    assert a + [sep] + b + [sep] + c == a + [sep] + (b + [sep] + c);
    SplitPrefix(a, b + [sep] + c, sep);
  }

  // ---------------------------------------------------------------------------
  // Digits, parseInt and integer-to-string
  // ---------------------------------------------------------------------------

  predicate IsDecimalDigit(c: char)
  {
    '0' <= c <= '9'
  }

  /** A digit of radix 10 or 16, as `parseInt` accepts them (either letter case). */
  predicate IsRadixDigit(c: char, radix: nat)
  {
    if radix == 16 then IsDecimalDigit(c) || 'a' <= c <= 'f' || 'A' <= c <= 'F'
    else IsDecimalDigit(c)
  }

  function DigitValue(c: char): nat
  {
    if IsDecimalDigit(c) then c as nat - '0' as nat
    else if 'a' <= c <= 'f' then c as nat - 'a' as nat + 10
    else if 'A' <= c <= 'F' then c as nat - 'A' as nat + 10
    else 0
  }

  predicate AllDigits(s: string, radix: nat)
  {
    forall i :: 0 <= i < |s| ==> IsRadixDigit(s[i], radix)
  }

  /** The length of the longest prefix made of digits of `radix`. */
  function DigitRun(s: string, radix: nat): (n: nat)
    ensures n <= |s|
    ensures AllDigits(s[..n], radix)
    ensures n < |s| ==> !IsRadixDigit(s[n], radix)
  {
    if |s| > 0 && IsRadixDigit(s[0], radix) then
      var n := 1 + DigitRun(s[1..], radix);
      assert s[..n] == [s[0]] + s[1..][..n - 1];
      n
    else 0
  }

  /** The value of a digit string, most significant digit first. */
  function ValueOf(digits: string, radix: nat): nat
  {
    if digits == [] then 0
    else ValueOf(digits[..|digits| - 1], radix) * radix + DigitValue(digits[|digits| - 1])
  }

  /** A `0x` or `0X` prefix, which switches `parseInt` to base 16. */
  predicate HexPrefixed(u: string)
  {
    |u| >= 2 && u[0] == '0' && (u[1] == 'x' || u[1] == 'X')
  }

  /** The unsigned part of `parseInt`: the longest run of digits after an
      optional hex prefix, or `None` when there is no digit. */
  function ParseMagnitude(u: string): Option<nat>
  {
    var radix := if HexPrefixed(u) then 16 else 10;
    var body := if HexPrefixed(u) then u[2..] else u;
    var n := DigitRun(body, radix);
    if n == 0 then None else Some(ValueOf(body[..n], radix))
  }

  /** `parseInt` once the leading whitespace is skipped: an optional sign,
      then the magnitude. Minus zero is zero. */
  function ParseSigned(t: string): (r: Option<int>)
    ensures t == [] ==> r == None
    ensures r.Some? && r.value < 0 ==> t[0] == '-'
  {
    var signed := |t| > 0 && (t[0] == '-' || t[0] == '+');
    match ParseMagnitude(if signed then t[1..] else t)
    case None => None
    case Some(m) => var v: int := m; Some(if signed && t[0] == '-' then -v else v)
  }

  /** `parseInt(s)` with no radix: skip leading whitespace, take an optional
      sign, switch to base 16 after a `0x`/`0X` prefix, then read the longest
      run of digits; no digits at all is `NaN` (`None`). */
  function ParseInt(s: string): (r: Option<int>)
    ensures TrimStart(s) == [] ==> r == None
    ensures r.Some? && r.value < 0 ==> TrimStart(s)[0] == '-'
  {
    ParseSigned(TrimStart(s))
  }

  function DigitChar(d: nat): (c: char)
    requires d < 10
    ensures IsDecimalDigit(c) && DigitValue(c) == d
  {
    ('0' as nat + d) as char
  }

  /** Decimal rendering of a natural number, as `String(n)` writes it. */
  function NatToString(n: nat): (s: string)
    ensures |s| >= 1 && AllDigits(s, 10)
    ensures ValueOf(s, 10) == n
    ensures s[0] == '0' <==> n == 0
    ensures n == 0 ==> s == "0"
  {
    if n < 10 then [DigitChar(n)]
    else
      var p := NatToString(n / 10);
      var s := p + [DigitChar(n % 10)];
      assert s[..|s| - 1] == p;
      s
  }

  /** Decimal rendering of an integer, with a leading `-` when negative. */
  function IntToString(n: int): string
  {
    if n < 0 then "-" + NatToString(-n) else NatToString(n)
  }

  /** A non-empty run of decimal digits parses to its value. */
  lemma ParseDigits(s: string)
    requires |s| >= 1 && AllDigits(s, 10)
    ensures ParseInt(s) == Some(ValueOf(s, 10))
  {
    assert IsDecimalDigit(s[0]);
    assert TrimStart(s) == s;
    MagnitudeOfDigits(s);
    var t := TrimStart(s);
    assert !(|t| > 0 && (t[0] == '-' || t[0] == '+'));
  }

  lemma MagnitudeOfDigits(s: string)
    requires |s| >= 1 && AllDigits(s, 10)
    ensures ParseMagnitude(s) == Some(ValueOf(s, 10))
  {
    assert !HexPrefixed(s) by {
      if |s| >= 2 { assert IsDecimalDigit(s[1]); }
    }
    DigitRunAll(s, 10);
    assert s[..|s|] == s;
  }

  lemma {:induction false} DigitRunAll(s: string, radix: nat)
    requires AllDigits(s, radix)
    ensures DigitRun(s, radix) == |s|
  {
    if |s| > 0 {
      DigitRunAll(s[1..], radix);
    }
  }

  /** `parseInt` reads back what integer-to-string writes. */
  lemma ParseIntToString(n: int)
    ensures ParseInt(IntToString(n)) == Some(n)
  {
    if n < 0 {
      var d := NatToString(-n);
      var s := "-" + d;
      assert s[1..] == d;
      assert !IsWhite(s[0]);
      assert TrimStart(s) == s;
      DigitRunAll(d, 10);
      assert d[..|d|] == d;
    } else {
      ParseDigits(NatToString(n));
    }
  }

  /** Leading whitespace is skipped: padding does not change what is read. */
  lemma ParseIntSkipsWhite(w: string, u: string)
    requires AllWhite(w) && (u == [] || !IsWhite(u[0]))
    ensures ParseInt(w + u) == ParseInt(u)
  {
    TrimStartPadded(w, u);
    assert TrimStart(u) == u;
  }

  /** A string starting with a sign is read as the magnitude after the
      sign, negated for `-`. */
  lemma ParseIntSigned(s: string, m: nat)
    requires |s| >= 1 && (s[0] == '-' || s[0] == '+')
    requires ParseMagnitude(s[1..]) == Some(m)
    ensures var r := ParseInt(s); r.Some? && r.value == if s[0] == '-' then -(m as int) else m
  {
    assert TrimStart(s) == s;
  }

  /** A character put in front of a string is its first character, and the
      string is what follows it. */
  lemma ConsParts(c: char, d: string)
    ensures ([c] + d)[0] == c && ([c] + d)[1..] == d
  {
  }

  /** One leading sign is read: `-` negates the magnitude after it and `+`
      keeps it. */
  lemma ParseIntSign(sign: char, d: string, m: nat)
    requires sign == '-' || sign == '+'
    requires ParseMagnitude(d) == Some(m)
    ensures var r := ParseInt([sign] + d); r.Some? && r.value == if sign == '-' then -(m as int) else m
  {
    ConsParts(sign, d);
    ParseIntSigned([sign] + d, m);
  }

  /** After whitespace, a decimal digit string parses to its value. */
  lemma ParseIntPadded(w: string, d: string)
    requires AllWhite(w) && |d| >= 1 && AllDigits(d, 10)
    ensures ParseInt(w + d) == Some(ValueOf(d, 10))
  {
    assert IsDecimalDigit(d[0]);
    ParseIntSkipsWhite(w, d);
    ParseDigits(d);
  }

  /** After whitespace, a sign and the magnitude it precedes are read as
      that magnitude, negated for `-`. */
  lemma ParseIntPaddedMagnitude(w: string, sign: char, d: string, m: nat)
    requires AllWhite(w) && (sign == '-' || sign == '+')
    requires ParseMagnitude(d) == Some(m)
    ensures var r := ParseInt(w + ([sign] + d)); r.Some? && r.value == if sign == '-' then -(m as int) else m
  {
    ConsParts(sign, d);
    ParseIntSkipsWhite(w, [sign] + d);
    ParseIntSign(sign, d, m);
  }

  /** After whitespace, `-` and a decimal digit string parse to the negated
      value of the digits. */
  lemma ParseIntPaddedNegative(w: string, d: string)
    requires AllWhite(w) && |d| >= 1 && AllDigits(d, 10)
    ensures var r := ParseInt(w + ("-" + d)); r.Some? && r.value == -(ValueOf(d, 10) as int)
  {
    MagnitudeOfDigits(d);
    assert "-" + d == ['-'] + d;
    ParseIntPaddedMagnitude(w, '-', d, ValueOf(d, 10));
  }

  /** After whitespace, `+` and a decimal digit string parse to the value of
      the digits. */
  lemma ParseIntPaddedPositive(w: string, d: string)
    requires AllWhite(w) && |d| >= 1 && AllDigits(d, 10)
    ensures ParseInt(w + ("+" + d)) == Some(ValueOf(d, 10))
  {
    MagnitudeOfDigits(d);
    ParseIntPaddedMagnitude(w, '+', d, ValueOf(d, 10));
  }

  /** After a hex prefix, hexadecimal digits are read whole in base 16. */
  lemma HexMagnitude(u: string, h: string)
    requires HexPrefixed(u) && u[2..] == h
    requires |h| >= 1 && AllDigits(h, 16)
    ensures ParseMagnitude(u) == Some(ValueOf(h, 16))
  {
    DigitRunAll(h, 16);
    assert h[..|h|] == h;
  }

  /** A string starting with a digit is read as its magnitude, unsigned. */
  lemma ParseIntUnsigned(u: string, m: nat)
    requires |u| >= 1 && IsDecimalDigit(u[0])
    requires ParseMagnitude(u) == Some(m)
    ensures ParseInt(u) == Some(m)
  {
    assert TrimStart(u) == u;
  }

  /** A `0x` or `0X` prefix reads the digits after it in base 16. */
  lemma ParseIntHex(prefix: string, h: string)
    requires prefix == "0x" || prefix == "0X"
    requires |h| >= 1 && AllDigits(h, 16)
    ensures ParseInt(prefix + h) == Some(ValueOf(h, 16))
  {
    var u := prefix + h;
    assert u[0] == '0' && u[1] == prefix[1] && u[2..] == h;
    HexMagnitude(u, h);
    ParseIntUnsigned(u, ValueOf(h, 16));
  }

  /** Reading stops at the first character that is not a digit. */
  lemma {:induction false} DigitRunStops(d: string, rest: string, radix: nat)
    requires AllDigits(d, radix) && (rest == [] || !IsRadixDigit(rest[0], radix))
    ensures DigitRun(d + rest, radix) == |d|
  {
    if d == [] {
      assert d + rest == rest;
    } else {
      assert (d + rest)[1..] == d[1..] + rest;
      DigitRunStops(d[1..], rest, radix);
    }
  }

  /** Whatever follows the digits is ignored: `"1.5"` reads as 1. */
  lemma ParseIntStopsAtNonDigit(d: string, rest: string)
    requires |d| >= 1 && AllDigits(d, 10)
    requires rest == [] || !IsDecimalDigit(rest[0])
    requires !HexPrefixed(d + rest)
    ensures ParseInt(d + rest) == Some(ValueOf(d, 10))
  {
    var u := d + rest;
    assert u[0] == d[0] && IsDecimalDigit(u[0]);
    DigitRunStops(d, rest, 10);
    assert u[..|d|] == d;
    ParseIntUnsigned(u, ValueOf(d, 10));
  }

  /** With no digit to read, `parseInt` gives `NaN`: for blank input, a lone
      sign, and a bare hex prefix. */
  lemma ParseIntNaN(w: string)
    requires AllWhite(w)
    ensures ParseInt(w) == None
    ensures ParseInt(w + "-") == None && ParseInt(w + "+") == None
    ensures ParseInt(w + "0x") == None
  {
    AllWhiteTrimStart(w);
    TrimStartPadded(w, "-");
    TrimStartPadded(w, "+");
    TrimStartPadded(w, "0x");
    assert "-"[1..] == [] && "+"[1..] == [];
    assert HexPrefixed("0x") && "0x"[2..] == [];
  }

  // ---------------------------------------------------------------------------
  // Upper-casing
  // ---------------------------------------------------------------------------

  /** `toUpperCase` on one character, for the ASCII letters. */
  function ToUpperAscii(c: char): (u: char)
    ensures !('a' <= u <= 'z')
    ensures !('a' <= c <= 'z') ==> u == c
    ensures 'a' <= c <= 'z' ==> 'A' <= u <= 'Z' && u as int - 'A' as int == c as int - 'a' as int
  {
    if 'a' <= c <= 'z' then (c as int - 'a' as int + 'A' as int) as char else c
  }
}

=== FILE: notifications.dfy ===
/** The notifications page: one welcome message per registered user. The
    users request's outcome is an input, and so is the date parser's verdict
    on a join date; the current time a message falls back to is left as a
    marker, not a value. */
module Notifications {
  import opened Users

  /** A text column of a user record as JSON delivers it: absent, `null`, or
      a string. */
  datatype JsField = Undefined | Null | Text(s: string)

  /** JavaScript truthiness of a field: a non-empty string. */
  predicate Truthy(f: JsField)
  {
    f.Text? && f.s != []
  }

  /** How a template literal writes a field. */
  function Render(f: JsField): (r: string)
    ensures f.Text? ==> r == f.s
    ensures f == Undefined ==> r == "undefined"
    ensures f == Null ==> r == "null"
  {
    match f
    case Undefined => "undefined"
    case Null => "null"
    case Text(s) => s
  }

  /** `user.alias || user.firstName`: the alias when it is truthy, otherwise
      the first name whatever it holds. */
  function NameField(alias: JsField, firstName: JsField): (name: JsField)
    ensures Truthy(alias) ==> name == alias
    ensures !Truthy(alias) ==> name == firstName
  {
    if Truthy(alias) then alias else firstName
  }

  /** A user as the users endpoint returns it. The id is kept in the form the
      template writes it. */
  datatype ApiUser = ApiUser(id: string, alias: JsField, firstName: JsField, joinedAt: JsField)

  /** Where the shown date comes from: the join date, or the current time
      when the join date is missing, empty or unparseable. */
  datatype DateSource = JoinDate(raw: string) | CurrentTime

  datatype WelcomeMessage = WelcomeMessage(
    id: string,
    kind: string,
    user: JsField,
    message: string,
    shownDate: DateSource,
    timestamp: JsField)

  const IdPrefix: string := "welcome-"
  const JoinedSuffix: string := " has joined the app"

  /** The date a message shows. `validDates` holds the strings from which
      `new Date(raw)` builds a valid time. */
  function ShownDate(joinedAt: JsField, validDates: iset<string>): (src: DateSource)
    ensures src.JoinDate? <==> Truthy(joinedAt) && joinedAt.s in validDates
    ensures src.JoinDate? ==> src.raw == joinedAt.s
  {
    if Truthy(joinedAt) && joinedAt.s in validDates then JoinDate(joinedAt.s)
    else CurrentTime
  }

  /** The message built for one user. */
  function Welcome(u: ApiUser, validDates: iset<string>): (m: WelcomeMessage)
    ensures |m.id| == |IdPrefix| + |u.id|
    ensures m.id[..|IdPrefix|] == IdPrefix && m.id[|IdPrefix|..] == u.id
    ensures m.kind == "welcome"
    ensures Truthy(u.alias) ==> m.user == u.alias
    ensures !Truthy(u.alias) ==> m.user == u.firstName
    ensures |m.message| == |Render(m.user)| + |JoinedSuffix|
    ensures m.message[..|Render(m.user)|] == Render(m.user)
    ensures m.message[|Render(m.user)|..] == JoinedSuffix
    ensures m.shownDate == ShownDate(u.joinedAt, validDates)
    ensures m.timestamp == u.joinedAt
  {
    var name := NameField(u.alias, u.firstName);
    WelcomeMessage(IdPrefix + u.id, "welcome", name, Render(name) + JoinedSuffix,
                   ShownDate(u.joinedAt, validDates), u.joinedAt)
  }

  /** For users whose alias and first name are strings, the shown name is the
      display name every other page uses. */
  lemma WelcomeUsesDisplayName(u: ApiUser, validDates: iset<string>)
    requires u.alias.Text? && u.firstName.Text?
    ensures Welcome(u, validDates).user == Text(DisplayName(u.alias.s, u.firstName.s))
    ensures Welcome(u, validDates).message == DisplayName(u.alias.s, u.firstName.s) + JoinedSuffix
  {
    var m := Welcome(u, validDates);
    assert m.message == m.message[..|Render(m.user)|] + m.message[|Render(m.user)|..];
  }

  /** A user with neither an alias nor a first name is announced as
      "undefined has joined the app". */
  lemma NamelessUserIsUndefined(u: ApiUser, validDates: iset<string>)
    requires !Truthy(u.alias) && u.firstName == Undefined
    ensures Welcome(u, validDates).message == "undefined has joined the app"
  {
    var m := Welcome(u, validDates);
    assert m.message == m.message[..|Render(m.user)|] + m.message[|Render(m.user)|..];
  }

  /** `allUsers.map(...)`. */
  function WelcomeMessages(users: seq<ApiUser>, validDates: iset<string>): (ms: seq<WelcomeMessage>)
    ensures |ms| == |users|
    ensures forall k :: 0 <= k < |users| ==> ms[k] == Welcome(users[k], validDates)
  {
    if users == [] then []
    else [Welcome(users[0], validDates)] + WelcomeMessages(users[1..], validDates)
  }

  /** The users endpoint's answer as the page sees it. */
  datatype UsersResponse =
    | Ok(users: seq<ApiUser>)
    | NotOk      // the response came back without an ok status
    | Threw      // the request, the body parse or the mapping threw

  /** The list the page shows after loading: set only on an ok response. */
  function Load(shown: seq<WelcomeMessage>, response: UsersResponse, validDates: iset<string>): (r: seq<WelcomeMessage>)
    ensures !response.Ok? ==> r == shown
    ensures response.Ok? ==> |r| == |response.users|
    ensures response.Ok? ==> forall k :: 0 <= k < |r| ==> r[k] == Welcome(response.users[k], validDates)
  {
    match response
    case Ok(users) => WelcomeMessages(users, validDates)
    case NotOk => shown
    case Threw => shown
  }

  /** Mapping works user by user: the messages for two lists of users joined
      are the two lists of messages joined. */
  lemma {:induction false} WelcomeMessagesAppend(a: seq<ApiUser>, b: seq<ApiUser>, validDates: iset<string>)
    ensures WelcomeMessages(a + b, validDates) == WelcomeMessages(a, validDates) + WelcomeMessages(b, validDates)
  {
    if a == [] {
      assert a + b == b;
    } else {
      assert (a + b)[1..] == a[1..] + b;
      WelcomeMessagesAppend(a[1..], b, validDates);
    }
  }

  /** Users with distinct ids get messages with distinct ids. */
  lemma DistinctIds(users: seq<ApiUser>, validDates: iset<string>, i: nat, j: nat)
    requires i < |users| && j < |users| && users[i].id != users[j].id
    ensures WelcomeMessages(users, validDates)[i].id != WelcomeMessages(users, validDates)[j].id
  {
  }

  /** A non-empty join date the date parser accepts is the date shown. */
  lemma ValidJoinDateShown(u: ApiUser, validDates: iset<string>)
    requires u.joinedAt.Text? && u.joinedAt.s != [] && u.joinedAt.s in validDates
    ensures Welcome(u, validDates).shownDate == JoinDate(u.joinedAt.s)
  {
  }

  /** The timestamp is the stored join date even when the shown date falls
      back to the current time. */
  lemma TimestampIgnoresFallback(u: ApiUser, validDates: iset<string>)
    requires u.joinedAt.Text? && u.joinedAt.s !in validDates
    ensures Welcome(u, validDates).shownDate == CurrentTime
    ensures Welcome(u, validDates).timestamp == u.joinedAt
  {
  }
}

=== FILE: route_guard.dfy ===
/** The guard that keeps signed-out visitors off private pages. The session
    entry it reads is a parameter (absent, or the stored string); the router
    push it makes is returned as a value. */
module RouteGuard {
  import opened Wrappers

  const PublicRoutes: seq<string> := ["/", "/login", "/join"]
  const LoginRoute: string := "/login"

  /** `PUBLIC_ROUTES.includes(pathname)`: whole-string equality with one of
      the listed routes. */
  predicate IsPublic(path: string)
  {
    path in PublicRoutes
  }

  /** The stored session is truthy: present and not the empty string. */
  predicate HasSession(session: Option<string>)
  {
    session.Some? && session.value != []
  }

  /** What the check settles: the `isAuthorized` flag and the route pushed. */
  datatype Decision = Decision(authorized: bool, redirect: Option<string>)

  /** The effect that runs on every path change. */
  function Check(path: string, session: Option<string>): (d: Decision)
    ensures d.authorized <==> IsPublic(path) || HasSession(session)
    ensures d.redirect.Some? <==> !d.authorized
    ensures d.redirect.Some? ==> d.redirect.value == LoginRoute
  {
    if IsPublic(path) then Decision(true, None)
    else if !HasSession(session) then Decision(false, Some(LoginRoute))
    else Decision(true, None)
  }

  /** The flag before the first check has run. */
  const InitiallyAuthorized: bool := false

  /** The children are drawn when authorised or on a public route. */
  function Renders(authorized: bool, path: string): (drawn: bool)
    ensures authorized ==> drawn
    ensures !authorized ==> (drawn <==> path == "/" || path == "/login" || path == "/join")
  {
    authorized || IsPublic(path)
  }

  /** Exact matching: a public route with anything after it is private. */
  lemma PublicIsExact(suffix: string)
    requires suffix != []
    ensures !IsPublic("/login" + suffix) && !IsPublic("/join" + suffix)
  {
    assert |"/login" + suffix| > |"/login"|;
    assert |"/join" + suffix| > |"/join"|;
    assert ("/join" + suffix)[1] == 'j' != "/login"[1];
  }

  /** Only the three listed routes are public. */
  lemma PublicRoutesAreListed(path: string)
    ensures IsPublic(path) <==> path == "/" || path == "/login" || path == "/join"
  {
  }

  /** On a public route the visitor is let in, signed in or not, and never
      sent elsewhere. */
  lemma PublicAlwaysAuthorized(path: string, session: Option<string>)
    requires IsPublic(path)
    ensures Check(path, session) == Decision(true, None)
  {
  }

  /** Before the first check a private page draws nothing and a public one
      draws its children. */
  lemma NothingBeforeCheck(path: string)
    ensures Renders(InitiallyAuthorized, path) <==> IsPublic(path)
  {
  }

  /** Once checked, a page draws exactly when it is public or a session is
      stored, and it is sent to the login page exactly when it does not. */
  lemma RenderAfterCheck(path: string, session: Option<string>)
    ensures var d := Check(path, session);
            && (Renders(d.authorized, path) <==> IsPublic(path) || HasSession(session))
            && (d.redirect == Some(LoginRoute) <==> !Renders(d.authorized, path))
  {
  }

  /** An empty stored string counts as signed out. */
  lemma EmptySessionIsSignedOut(path: string)
    requires !IsPublic(path)
    ensures Check(path, Some([])) == Decision(false, Some(LoginRoute))
  {
  }
}

=== FILE: updates_route.dfy ===
/** The "what's new" summary endpoint: it turns generated text into a list of
    bullet lines, and falls back to fixed one-line summaries when the key is
    missing, the request carries no updates, or anything throws. The text
    generator itself is a parameter: its output (or its failure) is an input. */
module UpdatesRoute {
  import opened Wrappers
  import opened JsText

  const KeyMissingSummary: string := "Dev forgot the keys... but the app is running! \U{1F511}"
  const NoUpdatesSummary: string := "Making things shiny and new! \U{2728}"
  const ErrorSummary: string := "Just doing some spring cleaning in the code! \U{1F9F9}"

  /** The `rawUpdates` field of the request body, as JSON delivers it. */
  datatype JsonValue =
    | Absent
    | Null
    | Bool(b: bool)
    | Number(n: real)
    | Str(s: string)
    | Compound(printable: bool)  // an array or an object: always truthy

  /** JavaScript truthiness of a JSON value. */
  predicate JsonTruthy(v: JsonValue)
  {
    match v
    case Absent => false
    case Null => false
    case Bool(b) => b
    case Number(n) => n != 0.0
    case Str(s) => s != []
    case Compound(_) => true
  }

  /** Writing the value into the prompt's template literal succeeds. An
      array or an object is converted through its `toString`, which throws
      when that member is not callable (as in `{"toString": 1}`). */
  predicate Printable(v: JsonValue)
  {
    !v.Compound? || v.printable
  }

  /** The request body: parsed JSON, or a body whose parsing or
      destructuring throws (invalid JSON, or a JSON `null` body). */
  datatype Body = Parsed(rawUpdates: JsonValue) | Malformed

  /** What the text generator produced for the prompt. */
  datatype Generation = Generated(text: string) | GenerationFailed

  predicate IsMarker(c: char)
  {
    c == '*' || c == '-'
  }

  /** Replacing the pattern `^[*-]\s*` (anchored, no flags) with nothing:
      removes one leading `*` or `-` and the whitespace run after it; any
      other line is returned as it is. */
  function StripMarker(line: string): (r: string)
    ensures |r| <= |line|
    ensures |line| > 0 && IsMarker(line[0]) ==> |r| < |line| && (r == [] || !IsWhite(r[0]))
    ensures !(|line| > 0 && IsMarker(line[0])) ==> r == line
  {
    if |line| > 0 && IsMarker(line[0]) then TrimStart(line[1..]) else line
  }

  /** Exactly one marker and the whitespace after it are removed: the result
      is a suffix of the line, and what lies between the marker and the
      result is whitespace. */
  lemma StripMarkerRemovesOneMarker(line: string)
    requires |line| > 0 && IsMarker(line[0])
    ensures StripMarker(line) == line[|line| - |StripMarker(line)|..]
    ensures AllWhite(line[1..|line| - |StripMarker(line)|])
  {
    var t := line[1..];
    var r := TrimStart(t);
    TrimStartRemovesWhite(t);
    assert t[..|t| - |r|] == line[1..|line| - |r|];
    assert t[|t| - |r|..] == line[|line| - |r|..];
  }

  /** Stripping the marker of a trimmed line leaves a trimmed line. */
  lemma StripMarkerEdgeless(line: string)
    requires Edgeless(line)
    ensures Edgeless(StripMarker(line))
  {
    var r := StripMarker(line);
    if r != [] && |line| > 0 && IsMarker(line[0]) {
      StripMarkerRemovesOneMarker(line);
      assert r[|r| - 1] == line[|line| - 1];
    }
  }

  /** A line the pipeline drops: nothing is left after trimming. */
  predicate Blank(line: string)
  {
    Trim(line) == []
  }

  /** The entry a non-blank line contributes. */
  function Bullet(line: string): string
  {
    StripMarker(Trim(line))
  }

  /** What one line contributes: nothing when blank, else its bullet. */
  function Contribution(line: string): (r: seq<string>)
    ensures |r| <= 1
    ensures forall k :: 0 <= k < |r| ==> Edgeless(r[k])
  {
    StripMarkerEdgeless(Trim(line));
    if Blank(line) then [] else [Bullet(line)]
  }

  /** The trim / drop-blank / strip-marker pipeline over the split lines. */
  function NormalizeLines(lines: seq<string>): (r: seq<string>)
    ensures |r| <= |lines|
    ensures forall k :: 0 <= k < |r| ==> Edgeless(r[k])
  {
    if lines == [] then []
    else Contribution(lines[0]) + NormalizeLines(lines[1..])
  }

  /** The positions at or after `start` of the non-blank lines, in increasing order. */
  function NonBlankFrom(lines: seq<string>, start: nat): (idx: seq<nat>)
    requires start <= |lines|
    ensures |idx| <= |lines| - start
    ensures forall k :: 0 <= k < |idx| ==> start <= idx[k] < |lines|
    decreases |lines| - start
  {
    if start == |lines| then []
    else if Blank(lines[start]) then NonBlankFrom(lines, start + 1)
    else [start] + NonBlankFrom(lines, start + 1)
  }

  /** Every listed position holds a non-blank line. */
  lemma {:induction false} NonBlankFromSound(lines: seq<string>, start: nat)
    requires start <= |lines|
    ensures forall k :: 0 <= k < |NonBlankFrom(lines, start)| ==> !Blank(lines[NonBlankFrom(lines, start)[k]])
    decreases |lines| - start
  {
    if start < |lines| {
      NonBlankFromSound(lines, start + 1);
    }
  }

  /** The listed positions strictly increase. */
  lemma {:induction false} NonBlankFromSorted(lines: seq<string>, start: nat)
    requires start <= |lines|
    ensures forall k, l :: 0 <= k < l < |NonBlankFrom(lines, start)| ==>
              NonBlankFrom(lines, start)[k] < NonBlankFrom(lines, start)[l]
    decreases |lines| - start
  {
    if start < |lines| {
      NonBlankFromSorted(lines, start + 1);
    }
  }

  /** Every non-blank line at or after `start` is listed. */
  lemma {:induction false} NonBlankFromComplete(lines: seq<string>, start: nat)
    requires start <= |lines|
    ensures var idx := NonBlankFrom(lines, start);
            forall i :: start <= i < |lines| && !Blank(lines[i]) ==> i in idx
    decreases |lines| - start
  {
    if start < |lines| {
      NonBlankFromComplete(lines, start + 1);
    }
  }

  /** `NonBlankFrom` lists every non-blank position at or after `start`,
      and nothing else, in strictly increasing order. */
  lemma NonBlankFromExact(lines: seq<string>, start: nat)
    requires start <= |lines|
    ensures var idx := NonBlankFrom(lines, start);
            && (forall k :: 0 <= k < |idx| ==> start <= idx[k] < |lines| && !Blank(lines[idx[k]]))
            && (forall k, l :: 0 <= k < l < |idx| ==> idx[k] < idx[l])
            && (forall i :: start <= i < |lines| && !Blank(lines[i]) ==> i in idx)
  {
    NonBlankFromSound(lines, start);
    NonBlankFromSorted(lines, start);
    NonBlankFromComplete(lines, start);
  }

  /** The output has exactly one entry per non-blank line, in input order:
      entry k is the bullet of the k-th non-blank line. */
  lemma NormalizeFollowsNonBlankLines(lines: seq<string>)
    ensures |NormalizeLines(lines)| == |NonBlankFrom(lines, 0)|
    ensures forall k :: 0 <= k < |NormalizeLines(lines)| ==>
              NormalizeLines(lines)[k] == Bullet(lines[NonBlankFrom(lines, 0)[k]])
    ensures forall i :: 0 <= i < |lines| && !Blank(lines[i]) ==> i in NonBlankFrom(lines, 0)
    ensures forall k, l :: 0 <= k < l < |NonBlankFrom(lines, 0)| ==>
              NonBlankFrom(lines, 0)[k] < NonBlankFrom(lines, 0)[l]
  {
    NonBlankFromExact(lines, 0);
    NormalizeFollowsFrom(lines, 0);
    assert lines[0..] == lines;
  }

  lemma {:induction false} NormalizeFollowsFrom(lines: seq<string>, start: nat)
    requires start <= |lines|
    ensures |NormalizeLines(lines[start..])| == |NonBlankFrom(lines, start)|
    ensures forall k :: 0 <= k < |NormalizeLines(lines[start..])| ==>
              NormalizeLines(lines[start..])[k] == Bullet(lines[NonBlankFrom(lines, start)[k]])
    decreases |lines| - start
  {
    if start < |lines| {
      NormalizeFollowsFrom(lines, start + 1);
      var all := lines[start..];
      assert all[1..] == lines[start + 1..];
      assert all[0] == lines[start];
      var r := NormalizeLines(all);
      var tail := NormalizeLines(lines[start + 1..]);
      var idx := NonBlankFrom(lines, start);
      var rest := NonBlankFrom(lines, start + 1);
      assert r == Contribution(lines[start]) + tail;
      if !Blank(lines[start]) {
        assert r == [Bullet(lines[start])] + tail;
        assert idx == [start] + rest;
        ConsPreservesIndexing(lines, Bullet(lines[start]), tail, start, rest);
      } else {
        assert r == tail;
      }
    }
  }

  lemma ConsPreservesIndexing(lines: seq<string>, b: string, tail: seq<string>, start: nat, rest: seq<nat>)
    requires start < |lines| && b == Bullet(lines[start])
    requires |tail| == |rest|
    requires forall k :: 0 <= k < |rest| ==> rest[k] < |lines| && tail[k] == Bullet(lines[rest[k]])
    ensures forall k :: 0 <= k < |tail| + 1 ==>
              ([start] + rest)[k] < |lines| && ([b] + tail)[k] == Bullet(lines[([start] + rest)[k]])
  {
  }

  /** The pipeline works line by line: concatenated inputs give concatenated outputs. */
  lemma {:induction false} NormalizeAppend(a: seq<string>, b: seq<string>)
    ensures NormalizeLines(a + b) == NormalizeLines(a) + NormalizeLines(b)
  {
    if a != [] {
      assert (a + b)[1..] == a[1..] + b;
      NormalizeAppend(a[1..], b);
    } else {
      assert a + b == b;
    }
  }

  /** The bullet list built from the generated text. */
  function Bullets(text: string): (r: seq<string>)
    ensures |r| <= multiset(text)['\n'] + 1
    ensures forall k :: 0 <= k < |r| ==> Edgeless(r[k])
  {
    SplitCount(text, '\n');
    NormalizeLines(Split(text, '\n'))
  }

  /** The `summary` array the endpoint answers with. A missing or empty key
      wins over everything; a body that fails to parse, an update value that
      cannot be written into the prompt, or a generator that fails gives the
      error fallback. */
  function Summary(apiKey: Option<string>, body: Body, generation: Generation): (summary: seq<string>)
    ensures apiKey == None || apiKey == Some([]) ==> summary == [KeyMissingSummary]
    ensures apiKey.Some? && apiKey.value != [] && body.Parsed? && !JsonTruthy(body.rawUpdates) ==>
              summary == [NoUpdatesSummary]
    ensures apiKey.Some? && apiKey.value != [] &&
            (body.Malformed? ||
             (JsonTruthy(body.rawUpdates) && (!Printable(body.rawUpdates) || generation.GenerationFailed?))) ==>
              summary == [ErrorSummary]
    ensures apiKey.Some? && apiKey.value != [] && body.Parsed? && JsonTruthy(body.rawUpdates) &&
            Printable(body.rawUpdates) && generation.Generated? ==>
              summary == Bullets(generation.text)
    ensures summary == [] ==> generation.Generated? && Bullets(generation.text) == []
  {
    if apiKey == None || apiKey == Some([]) then [KeyMissingSummary]
    else match body
      case Malformed => [ErrorSummary]
      case Parsed(raw) =>
        if !JsonTruthy(raw) then [NoUpdatesSummary]
        else if !Printable(raw) then [ErrorSummary]
        else match generation
          case GenerationFailed => [ErrorSummary]
          case Generated(text) => Bullets(text)
  }

  /** Only the first marker goes: a doubled marker keeps its second half. */
  lemma DoubleMarkerKeepsOne()
    ensures Bullets("** x") == ["* x"]
  {
    var line := "** x";
    SplitNoSeparator(line, '\n');
    TrimPadded([], line, []);
    assert [] + line + [] == line;
    assert line[1..] == "* x";
    assert TrimStart("* x") == "* x";
    assert Bullet(line) == "* x";
    assert Contribution(line) == ["* x"];
    assert NormalizeLines([line]) == Contribution(line) + NormalizeLines([]);
  }

  /** A line holding only a marker survives the blank-line filter and becomes
      an empty entry. */
  lemma MarkerOnlyLineIsEmptyEntry()
    ensures Bullets("-") == [""]
  {
    SplitNoSeparator("-", '\n');
    TrimPadded([], "-", []);
    assert [] + "-" + [] == "-";
  }
}

=== FILE: users.dfy ===
/** The signed-in user as the pages read it back from session storage, and
    the display-name rule every page shares. A field that is missing from the
    stored record is the empty string here. Both are falsy, so `||` and the
    emptiness tests treat them alike; only a user missing both names differs,
    whose author name is `undefined` in the source and "" here. */
module Users {

  datatype User = User(alias: string, firstName: string)

  /** `user.alias || user.firstName`: the alias when it is non-empty,
      otherwise the first name. */
  function DisplayName(alias: string, firstName: string): (name: string)
    ensures alias != [] ==> name == alias
    ensures alias == [] ==> name == firstName
  {
    if alias != [] then alias else firstName
  }

  function AuthorName(user: User): string
  {
    DisplayName(user.alias, user.firstName)
  }
}

=== FILE: wrappers.dfy ===
/** The optional-value type shared by every module of the model: `None` stands
    for JavaScript's `undefined`/`null` (and, for numbers, `NaN`). */
module Wrappers {

  datatype Option<+T> = None | Some(value: T)
}
